=== FILE: README.md ===
# swagger2markup paths document, modelled in Dafny

This project models the part of swagger2markup that turns the paths of a
parsed Swagger model into a markup document, and proves properties of it.
That part is `PathsDocument` together with `ModelUtils.getType`.

The Dafny model covers:

- **Configuration.** The constructor enables examples and hand-written
  descriptions only when their folders are configured and not blank.
  Hand-written path descriptions live in the `paths` sub-folder.
- **The walk over the path map.** With `AS_IS` grouping, a level-1 "Paths"
  heading comes first, then every operation in map order. With `TAGS`
  grouping, a level-1 "Resources" heading comes first, then one level-2
  section per tag, with the tag's description when it has one. Null path
  items and null operations are skipped.
- **One operation.** Its title is the summary (with the method and path as a
  listing beneath it) or else the method and path. After the title come, in
  a fixed order, the Description, Parameters, Responses, Consumes, Produces,
  Tags and example subsections. Each one appears only when it has something
  to show.
- **Hand-written descriptions and examples.** Their folder key is derived
  from the summary: periods removed, spaces turned into underscores, then
  lower-cased. The lookup tries the markup language's file name extensions
  in order. A candidate file that is not readable, or whose read fails, is
  skipped. The first file read successfully wins, and its content is
  trimmed.
- **`ModelUtils.getType`.** A model implementation shows its declared type.
  A reference shows its target, written as a cross reference under
  AsciiDoc. An array shows its item type followed by the array's own type.
  Anything else shows `NOT FOUND`. A null model is rejected.

The document builder is modelled as a sequence of markup events
(`Markup.Event`), one per builder call. The filesystem is an abstract map
from path segments to entries (`FileStore.Store`). Each entry is unreadable,
readable but failing to read, or readable with some content.

Modules, one per file:

- `Wrappers`: Option and Result.
- `JavaStrings`: the JDK and Commons Lang string functions the renderer
  uses.
- `FileStore`: paths and the extension-probing resolver.
- `SwaggerModel`: the records the renderer reads.
- `ModelUtils`: getType.
- `OperationFolder`: the folder key derived from a summary.
- `Markup`: events and heading projections.
- `PathsDocument`: the renderer.
- `PathsProperties`: properties of one operation.
- `PathsWalk`: properties of the walk over paths and tags.

## Model

| member | source | states |
|---|---|---|
| PathsDocument.Configure | src/main/java/io/github/robwin/swagger2markup/builder/document/PathsDocument.java:71-81 | examples are enabled iff the examples folder is non-null and not blank; the same holds for descriptions; the descriptions root is the configured folder followed by "/paths" |
| PathsDocument.PathTitle | src/main/java/io/github/robwin/swagger2markup/builder/document/PathsDocument.java:183-209 | the title heading sits at level 2 (AS_IS) or 3 (TAGS); it carries the summary and is followed by a listing of method and path exactly when the summary is not blank; otherwise it carries method and path alone |
| PathsDocument.OperationDescription | src/main/java/io/github/robwin/swagger2markup/builder/document/PathsDocument.java:216-239 | the hand-written description under the summary's folder key replaces the Swagger description when it is found; the lookup happens only with descriptions enabled and a non-blank summary; in every other case the Swagger description is used |
| PathsDocument.PathDescription | src/main/java/io/github/robwin/swagger2markup/builder/document/PathsDocument.java:241-250 | no events iff the description is null or blank; otherwise a Description heading one level below the title, then the paragraph |
| PathsDocument.ParameterDescription | src/main/java/io/github/robwin/swagger2markup/builder/document/PathsDocument.java:289-314 | with descriptions disabled, or a blank folder key, or a blank parameter name, the result is the parameter's description with null read as empty; otherwise it is the file under folderKey/name, falling back to that description |
| PathsDocument.ParametersSection | src/main/java/io/github/robwin/swagger2markup/builder/document/PathsDocument.java:252-278 | no events iff there are no parameters; otherwise a Parameters heading and one table of header row plus parameter rows |
| PathsDocument.ResponsesSection | src/main/java/io/github/robwin/swagger2markup/builder/document/PathsDocument.java:465-487 | no events iff there are no responses; otherwise a Responses heading and one table of header row plus response rows |
| PathsDocument.ListSection | src/main/java/io/github/robwin/swagger2markup/builder/document/PathsDocument.java:316-339 | a consumes or produces subsection is empty iff its list is; otherwise it is the heading and the unordered list of the items |
| PathsDocument.DescriptionSection | src/main/java/io/github/robwin/swagger2markup/builder/document/PathsDocument.java:216-239 | the subsection is empty iff the description that wins the override chain is null or blank; otherwise it is the Description heading at the subsection level followed by one paragraph holding that description. With descriptions enabled and a non-blank summary, a hand-written description that is found is the one shown, or hides the subsection when it is blank. Otherwise the Swagger description is shown, and the subsection is empty iff that description is null or blank |
| PathsDocument.ConsumesSection | src/main/java/io/github/robwin/swagger2markup/builder/document/PathsDocument.java:316-326 | empty iff the operation consumes nothing; otherwise a Consumes heading at level 3 (AS_IS) or 4 (TAGS) followed by the unordered list of the media types, in order |
| PathsDocument.ProducesSection | src/main/java/io/github/robwin/swagger2markup/builder/document/PathsDocument.java:328-338 | empty iff the operation produces nothing; otherwise a Produces heading at level 3 (AS_IS) or 4 (TAGS) followed by the unordered list of the media types, in order |
| PathsDocument.TagsSection | src/main/java/io/github/robwin/swagger2markup/builder/document/PathsDocument.java:341-349 | present iff grouping is AS_IS and the operation has tags; then a level-3 Tags heading followed by the unordered list of the tags |
| PathsDocument.Subsections | src/main/java/io/github/robwin/swagger2markup/builder/document/PathsDocument.java:165-172 | the subsections after the title, in source order; which headings appear and in what order is stated by PathsProperties.SubsectionHeadings and PathsProperties.OperationSectionOrder, their levels and content by PathsProperties.OperationShape |
| PathsDocument.CreatePathSections | src/main/java/io/github/robwin/swagger2markup/builder/document/PathsDocument.java:150-155 | a path with no operations renders nothing; for the rest, PathsWalk.CreatePathSectionsConcat, PathsWalk.NullOperationSkipped and PathsWalk.CreatePathSectionsLevels state that it renders the non-null operations one after another in map order, each titled by its summary, or by method and path when the summary is blank |
| PathsDocument.PathEntries | src/main/java/io/github/robwin/swagger2markup/builder/document/PathsDocument.java:122-127 | an empty path map renders nothing; for the rest, PathsWalk.PathEntriesConcat, PathsWalk.NullPathItemSkipped and PathsWalk.PathEntriesLevels state that it renders each non-null path item in map order |
| PathsDocument.TagDescription | src/main/java/io/github/robwin/swagger2markup/builder/document/PathsDocument.java:134-137 | exactly one paragraph follows the tag heading when the tag has a description, holding that description, and nothing otherwise |
| PathsDocument.TagGroups | src/main/java/io/github/robwin/swagger2markup/builder/document/PathsDocument.java:128-145 | no groups render nothing; for the rest, PathsWalk.TagGroupsOutline states that each group opens with a level-2 heading of its capitalised tag name, in group order, and that the group's own operation titles follow that heading before the next tag's |
| PathsDocument.ExampleBlock | src/main/java/io/github/robwin/swagger2markup/builder/document/PathsDocument.java:363-371 | an example subsection appears iff its file was found, as the heading and the file's content |
| PathsDocument.ExamplesSection | src/main/java/io/github/robwin/swagger2markup/builder/document/PathsDocument.java:358-397 | no example is shown when examples are disabled or the summary is null or blank |
| PathsDocument.RenderOperation | src/main/java/io/github/robwin/swagger2markup/builder/document/PathsDocument.java:163-174 | a null operation renders nothing, and a non-null one always renders something |
| PathsDocument.RenderPaths | src/main/java/io/github/robwin/swagger2markup/builder/document/PathsDocument.java:117-148 | an empty path map renders nothing; otherwise the document opens with the level-1 heading "Paths" (AS_IS) or "Resources" (TAGS) |
| PathsProperties.OperationShape | src/main/java/io/github/robwin/swagger2markup/builder/document/PathsDocument.java:163-209 | an operation starts with its title heading at the title level; a listing of method and path follows it exactly when the summary is not blank, and no listing appears anywhere else; every later heading is one level deeper and followed by non-heading content; no list or table is empty |
| PathsProperties.OperationSectionOrder | src/main/java/io/github/robwin/swagger2markup/builder/document/PathsDocument.java:163-174 | the headings of an operation are its title, then exactly the present subsections, each present iff its condition holds, in the order Description, Parameters, Responses, Consumes, Produces, Tags (AS_IS only), curl example, request example, response example |
| PathsProperties.TagsHeadings | src/main/java/io/github/robwin/swagger2markup/builder/document/PathsDocument.java:341-349 | a Tags subsection appears iff grouping is AS_IS and the operation has tags |
| PathsProperties.ParametersTable | src/main/java/io/github/robwin/swagger2markup/builder/document/PathsDocument.java:255-270 | the table has one header row (Type, Name, Description, Required, Schema, Default) and then one row per parameter in list order; each row holds the capitalised location plus "Parameter", the name, the parameter description, "true"/"false", the formatted type and the default value |
| PathsProperties.ResponsesTable | src/main/java/io/github/robwin/swagger2markup/builder/document/PathsDocument.java:468-479 | the table has one header row (HTTP Code, Description, Schema) and then one row per response in iteration order; each row holds the code, the description, and the formatted schema or "No Content" when there is none |
| PathsProperties.BlankSummaryIgnoresFiles | src/main/java/io/github/robwin/swagger2markup/builder/document/PathsDocument.java:216-239 | with a null or blank summary, the description and example subsections are the same whatever the files contain; the description falls back to the Swagger one, and there are no examples |
| PathsProperties.BlankHandWrittenDescriptionHidesSource | src/main/java/io/github/robwin/swagger2markup/builder/document/PathsDocument.java:221-223 | a hand-written description file that holds only whitespace is found; it trims to empty, so no Description subsection appears, even when the Swagger description is present |
| PathsProperties.WhitespaceSummaryQuirk | src/main/java/io/github/robwin/swagger2markup/builder/document/PathsDocument.java:289-297 | with the summary "  ", the operation description comes from Swagger, while parameter descriptions are looked up under the folder "__"; no example is shown |
| PathsProperties.DotSummaryQuirk | src/main/java/io/github/robwin/swagger2markup/builder/document/PathsDocument.java:219-221 | with the summary ".", the operation description is looked up with an empty folder key, directly under the descriptions root; parameter lookups are skipped because the folder key is blank |
| PathsProperties.EmptyFolderPath | src/main/java/io/github/robwin/swagger2markup/builder/document/PathsDocument.java:441 | an empty folder key contributes no path segment |
| PathsProperties.ParameterLookupPath | src/main/java/io/github/robwin/swagger2markup/builder/document/PathsDocument.java:295 | a parameter's file is looked up at root / folder key / parameter name / description plus extension |
| PathsWalk.OperationLevels | src/main/java/io/github/robwin/swagger2markup/builder/document/PathsDocument.java:203-209 | at the title level an operation holds exactly one heading, its title; above that level it holds none |
| PathsWalk.CreatePathSectionsConcat | src/main/java/io/github/robwin/swagger2markup/builder/document/PathsDocument.java:150-155 | rendering a path's operations distributes over splitting the operation map |
| PathsWalk.NullOperationSkipped | src/main/java/io/github/robwin/swagger2markup/builder/document/PathsDocument.java:163-164 | a null operation renders exactly as if it were absent from the operation map |
| PathsWalk.CreatePathSectionsLevels | src/main/java/io/github/robwin/swagger2markup/builder/document/PathsDocument.java:150-155 | the title-level headings of a path are its operations' titles, one per non-null operation, in map order |
| PathsWalk.PathEntriesConcat | src/main/java/io/github/robwin/swagger2markup/builder/document/PathsDocument.java:122-127 | rendering path entries distributes over splitting the path map |
| PathsWalk.NullPathItemSkipped | src/main/java/io/github/robwin/swagger2markup/builder/document/PathsDocument.java:123-126 | a null path item renders exactly as if it were absent from the path map |
| PathsWalk.PathEntriesLevels | src/main/java/io/github/robwin/swagger2markup/builder/document/PathsDocument.java:122-127 | the title-level headings of the entries are all operation titles, path by path, in map order |
| PathsWalk.TagGroupsLevels | src/main/java/io/github/robwin/swagger2markup/builder/document/PathsDocument.java:132-145 | under tag grouping, level 2 holds the capitalised tag names in group order, level 3 the operation titles group by group, and level 1 nothing |
| PathsWalk.RenderPathsAsIs | src/main/java/io/github/robwin/swagger2markup/builder/document/PathsDocument.java:117-127 | with AS_IS grouping, level 1 holds only "Paths" and level 2 every operation title in map order |
| PathsWalk.TagGroupsOutline | src/main/java/io/github/robwin/swagger2markup/builder/document/PathsDocument.java:132-145 | the headings of the tag groups down to level 3 are, group after group, the capitalised tag name followed by the titles of that group's operations, as the independent TagOutline definition lists them |
| PathsWalk.RenderPathsByTag | src/main/java/io/github/robwin/swagger2markup/builder/document/PathsDocument.java:128-145 | with TAGS grouping, level 1 holds only "Resources", level 2 the capitalised tags and level 3 the operation titles |
| PathsWalk.RenderPathsOutline | src/main/java/io/github/robwin/swagger2markup/builder/document/PathsDocument.java:128-145 | with TAGS grouping, the headings down to level 3 read "Resources", then for each group its capitalised tag name followed by the titles of that group's operations, group after group; so every operation sits under its own tag |
| FileStore.SegmentsJoin | src/main/java/io/github/robwin/swagger2markup/builder/document/PathsDocument.java:408 | joining two path parts with "/" gives the segments of the first part followed by those of the second |
| FileStore.FirstLoadable | src/main/java/io/github/robwin/swagger2markup/builder/document/PathsDocument.java:407-425 | the index found is the first candidate that loads; there is none iff no candidate loads |
| FileStore.ResolveFindsFirstLoadable | src/main/java/io/github/robwin/swagger2markup/builder/document/PathsDocument.java:439-463 | a lookup finds nothing iff no candidate, across the extensions, is readable with a successful read; otherwise it returns the trimmed content of the first one that is |
| FileStore.ResolveFirstWins | src/main/java/io/github/robwin/swagger2markup/builder/document/PathsDocument.java:409-414 | when the first extension's file loads, its trimmed content is returned, whatever the later files hold |
| FileStore.ResolveFallsThrough | src/main/java/io/github/robwin/swagger2markup/builder/document/PathsDocument.java:415-424 | a first candidate that is missing, unreadable or failing to read is skipped, and the lookup continues with the remaining extensions |
| FileStore.ProbeExtensions | src/main/java/io/github/robwin/swagger2markup/builder/document/PathsDocument.java:406-430 | the probing loop returns the same result as the resolver; it is absent iff nothing loads, else the trimmed content of the first candidate that loads |
| OperationFolder.FolderKey | src/main/java/io/github/robwin/swagger2markup/builder/document/PathsDocument.java:220 | the key holds no period, no space and no upper-case ASCII letter, and is no longer than the summary |
| OperationFolder.FolderKeyMatchesReference | src/main/java/io/github/robwin/swagger2markup/builder/document/PathsDocument.java:292 | the three-pass derivation equals a one-pass, character-by-character reference definition |
| OperationFolder.FolderKeyIdempotent | src/main/java/io/github/robwin/swagger2markup/builder/document/PathsDocument.java:362 | deriving the key of a key changes nothing |
| OperationFolder.FolderKeyBlank | src/main/java/io/github/robwin/swagger2markup/builder/document/PathsDocument.java:292-294 | the key is blank iff every summary character is a period or whitespace other than the space |
| OperationFolder.FolderKeyExample | src/main/java/io/github/robwin/swagger2markup/builder/document/PathsDocument.java:220 | "Get User Info." gives the key "get_user_info" |
| OperationFolder.BlanknessDisagrees | src/main/java/io/github/robwin/swagger2markup/builder/document/PathsDocument.java:219-220 | the blank summary "  " has the non-blank key "__"; the non-blank summary "." has the blank key "" |
| JavaStrings.Trim | src/main/java/io/github/robwin/swagger2markup/builder/document/PathsDocument.java:414 | the result is a contiguous slice of the input; everything removed before and after it is at most a space; a non-empty result starts and ends with a character above the space |
| JavaStrings.TrimIdempotent | src/main/java/io/github/robwin/swagger2markup/builder/document/PathsDocument.java:447 | trimming trimmed content changes nothing |
| JavaStrings.Capitalize | src/main/java/io/github/robwin/swagger2markup/builder/document/PathsDocument.java:133 | each character that begins a whitespace-delimited word is upper-cased and every other character is kept; the length is unchanged |
| JavaStrings.CapitalizeIdempotent | src/main/java/io/github/robwin/swagger2markup/builder/document/PathsDocument.java:133 | capitalising twice gives the same as capitalising once |
| JavaStrings.ToLowerCase | src/main/java/io/github/robwin/swagger2markup/builder/document/PathsDocument.java:80 | every character is lower-cased in place and the length is kept |
| ModelUtils.GetType | src/main/java/io/github/robwin/swagger2markup/utils/ModelUtils.java:37-51 | a model implementation shows its declared type; a reference shows "<<target>>" under AsciiDoc and the bare target otherwise; an array shows its item type, a space, and its own type; any other model shows "NOT FOUND" |
| ModelUtils.GetTypeChecked | src/main/java/io/github/robwin/swagger2markup/utils/ModelUtils.java:37-38 | fails iff the model is null, with the message "model must not be null!"; otherwise it succeeds with the model's display type |
| ModelUtils.CrossReferenceRoundTrip | src/main/java/io/github/robwin/swagger2markup/utils/ModelUtils.java:41-45 | the reference target is recovered from its AsciiDoc cross reference by stripping the two-character brackets |
| ModelUtils.LanguageOnlyAffectsReferences | src/main/java/io/github/robwin/swagger2markup/utils/ModelUtils.java:39-50 | AsciiDoc and Markdown give different display types iff the model is a reference, given an item formatter that ignores the language |
| ModelUtils.StringArrayExample | src/main/java/io/github/robwin/swagger2markup/utils/ModelUtils.java:46-48 | an array of strings whose own type is "array" reads "string array" |

## Left out

- Logging: every logger call is left out. None of them affects the output.
- The filesystem:
  - it is an abstract map from path segments to entries;
  - UTF-8 decoding, file permissions and I/O errors are collapsed into "unreadable" and "read fails";
  - `Paths.get` is modelled as splitting on "/" and dropping empty segments;
  - absolute and relative roots are not distinguished;
  - `InvalidPathException` on malformed names is not modelled.
- The document builder: joining table cells with the builder's delimiter, and the markup syntax each builder call produces, are the builder's business. A table row is its list of cells.
- Collaborators whose code is not part of this model are parameters of the renderer:
  - `ParameterUtils.getType`, `ParameterUtils.getDefaultValue` and `PropertyUtils.getType`;
  - the markup language's file name extensions;
  - the tag description lookup (`getTagDescription` over the tags map);
  - the grouping of paths by tag (`TagUtils.groupPathsByTag`). The tag groups are passed in beside the path map.
- The inherited titles and column names (Description, Consumes, Produces, Tags, Name, Required, Schema, Default) come from `MarkupDocument`, which is not part of this model. Their values are taken to be those words.
- The iteration order of Java maps is the order of the input sequences. The model says nothing about how a `HashMap` orders its keys.
- Null lists (parameters, consumes, produces, tags, responses) are empty sequences. The source tests them with `isNotEmpty`, which treats both alike.
- A null parameter name, null parameter location or null response description is not modelled: all three are plain strings here. In the source, a null name gives an empty table cell, because `StringUtils.join` writes a null element as an empty string. The parameter lookup then falls back to the Swagger description, because `isNotBlank(null)` is false. A null location is concatenated with "Parameter" and capitalised to "NullParameter". A null response description is concatenated into its row as the text "null".
- A null element in the parameter list, or a null value in the response map, is not modelled: parameters and responses are plain values here. The source dereferences both without a check, so it throws a NullPointerException at PathsDocument.java:261 (`parameter.getIn()`) or at PathsDocument.java:472 (`response.getSchema()`) and produces no document.
- PathsDocument.ParameterDescription: a null summary with hand-written descriptions enabled and at least one parameter is excluded by a precondition (`SummaryReadable`). The source throws a NullPointerException there rather than producing output.
- JavaStrings.ToLowerCase: case mapping covers ASCII letters only. `String.toLowerCase` is locale- and Unicode-aware.
- JavaStrings.Capitalize: `WordUtils.capitalize` uses Unicode title case; the model upper-cases ASCII letters only.
- PathsDocument.ExamplesSection: its contract states only the disabled and blank-summary cases. Which example blocks appear, and in which order, is stated by PathsProperties.OperationSectionOrder and PathsProperties.OperationShape.
- PathsDocument.RenderOperation: its contract states only the null case. The shape and order of its events are stated by PathsProperties.OperationShape and PathsProperties.OperationSectionOrder.
- PathsDocument.RenderPaths: its contract states only the empty case and the first heading. The headings at each level are stated by PathsWalk.RenderPathsAsIs and PathsWalk.RenderPathsByTag. Which operations sit under which tag is stated by PathsWalk.RenderPathsOutline.
- The lookup functions `HandWrittenPathDescription` and `Example` carry no contract of their own. They are the shared resolver, whose behaviour FileStore.ResolveFindsFirstLoadable, FileStore.ResolveFirstWins and FileStore.ResolveFallsThrough state.
- `ModelUtils.getType` for arrays appends the array model's own type, not a fixed word. The model follows the code: the suffix is the `arrayType` field. StringArrayExample shows the usual case, where that type is "array".

=== FILE: file_store.dfy ===
/** The filesystem as the renderer sees it: a path is the list of its
    non-empty segments, and each path is unreadable, readable but failing
    to read, or readable with some text content. */
module FileStore {
  import opened Wrappers
  import opened JavaStrings

  /** What Files.isReadable and FileUtils.readFileToString would report for one path. */
  datatype Entry = Unreadable | ReadFails | Content(text: string)

  /** A path absent from the map is not readable. */
  type Store = map<seq<string>, Entry>

  /** String.split on '/' keeping empty pieces: one piece per separator plus one. */
  function Split(s: string): (r: seq<string>)
    ensures |r| > 0
    ensures forall i :: 0 <= i < |r| ==> '/' !in r[i]
  {
    if |s| == 0 then [""]
    else
      var rest := Split(s[1..]);
      if s[0] == '/' then [""] + rest else [[s[0]] + rest[0]] + rest[1..]
  }

  /** The pieces that are not empty, in order. */
  function NonEmpty(pieces: seq<string>): (r: seq<string>)
    ensures forall i :: 0 <= i < |r| ==> r[i] != "" && r[i] in pieces
  {
    if |pieces| == 0 then []
    else (if pieces[0] == "" then [] else [pieces[0]]) + NonEmpty(pieces[1..])
  }

  /** The segments of a '/'-separated path string, with the empty segments
      that redundant, leading or trailing slashes produce dropped, as
      Paths.get normalises them. */
  function Segments(s: string): (r: seq<string>)
    ensures forall i :: 0 <= i < |r| ==> r[i] != "" && '/' !in r[i]
  {
    NonEmpty(Split(s))
  }

  lemma {:induction false} SplitJoin(a: string, b: string)
    ensures Split(a + "/" + b) == Split(a) + Split(b)
    decreases |a|
  {
    var s := a + "/" + b;
    if |a| == 0 {
      assert s[1..] == b;
    } else {
      assert s[1..] == a[1..] + "/" + b;
      SplitJoin(a[1..], b);
    }
  }

  lemma {:induction false} NonEmptyConcat(x: seq<string>, y: seq<string>)
    ensures NonEmpty(x + y) == NonEmpty(x) + NonEmpty(y)
    decreases |x|
  {
    if |x| == 0 {
      assert x + y == y;
    } else {
      assert (x + y)[0] == x[0];
      assert (x + y)[1..] == x[1..] + y;
      NonEmptyConcat(x[1..], y);
    }
  }

  /** Joining two path strings with a separator concatenates their segments. */
  lemma SegmentsJoin(a: string, b: string)
    ensures Segments(a + "/" + b) == Segments(a) + Segments(b)
  {
    SplitJoin(a, b);
    NonEmptyConcat(Split(a), Split(b));
  }

  /** The path Paths.get(root, folder, fileName + extension) denotes. */
  function CandidatePath(root: string, folder: string, fileName: string, extension: string): seq<string>
  {
    Segments(root + "/" + folder + "/" + fileName + extension)
  }

  /** A candidate path is the root's segments, then the folder's, then the file name. */
  lemma CandidatePathSegments(root: string, folder: string, fileName: string, extension: string)
    ensures CandidatePath(root, folder, fileName, extension)
         == Segments(root) + Segments(folder) + Segments(fileName + extension)
  {
    SegmentsJoin(root, folder);
    assert root + "/" + folder + "/" + fileName + extension == (root + "/" + folder) + "/" + (fileName + extension);
    SegmentsJoin(root + "/" + folder, fileName + extension);
  }

  /** The candidate paths for one file name, in extension order. */
  function Candidates(root: string, folder: string, fileName: string, extensions: seq<string>): (ps: seq<seq<string>>)
    ensures |ps| == |extensions|
    ensures forall i :: 0 <= i < |extensions| ==> ps[i] == CandidatePath(root, folder, fileName, extensions[i])
  {
    seq(|extensions|, i requires 0 <= i < |extensions| => CandidatePath(root, folder, fileName, extensions[i]))
  }

  /** The path is readable and reading it succeeds. */
  predicate Loads(store: Store, p: seq<string>) {
    p in store && store[p].Content?
  }

  /** Candidate i is the first one that loads. */
  predicate IsFirstLoadable(store: Store, ps: seq<seq<string>>, i: int) {
    && 0 <= i < |ps|
    && Loads(store, ps[i])
    && forall j :: 0 <= j < i ==> !Loads(store, ps[j])
  }

  /** Index of the first candidate that loads, if any. */
  function FirstLoadable(store: Store, ps: seq<seq<string>>): (r: Option<nat>)
    ensures r.Some? ==> IsFirstLoadable(store, ps, r.value)
    ensures r.None? <==> forall i :: 0 <= i < |ps| ==> !Loads(store, ps[i])
  {
    if |ps| == 0 then None
    else if Loads(store, ps[0]) then Some(0)
    else
      match FirstLoadable(store, ps[1..])
      case None => None
      case Some(i) => Some(i + 1)
  }

  /** At most one candidate is the first to load. */
  lemma FirstLoadableUnique(store: Store, ps: seq<seq<string>>, i: int, j: int)
    requires IsFirstLoadable(store, ps, i) && IsFirstLoadable(store, ps, j)
    ensures i == j
  {
  }

  /** The resolver shared by example and hand-written description lookups:
      the trimmed content of the first candidate, in extension order, that
      is readable and reads successfully; absent when there is none. */
  function Resolve(store: Store, root: string, folder: string, fileName: string, extensions: seq<string>): (r: Option<string>)
  {
    var ps := Candidates(root, folder, fileName, extensions);
    match FirstLoadable(store, ps)
    case None => None
    case Some(i) => Some(Trim(store[ps[i]].text))
  }

  /** Resolve finds nothing exactly when no candidate loads, and otherwise
      the trimmed content of the first candidate that does. */
  lemma ResolveFindsFirstLoadable(store: Store, root: string, folder: string, fileName: string, extensions: seq<string>)
    ensures var r := Resolve(store, root, folder, fileName, extensions);
      && (r.None? <==> forall i :: 0 <= i < |extensions| ==> !Loads(store, CandidatePath(root, folder, fileName, extensions[i])))
      && (r.Some? ==> exists i :: IsFirstLoadable(store, Candidates(root, folder, fileName, extensions), i)
                                && r.value == Trim(store[CandidatePath(root, folder, fileName, extensions[i])].text))
  {
    var ps := Candidates(root, folder, fileName, extensions);
    var r := Resolve(store, root, folder, fileName, extensions);
    if r.Some? {
      var i := FirstLoadable(store, ps).value;
      assert IsFirstLoadable(store, ps, i) && r.value == Trim(store[CandidatePath(root, folder, fileName, extensions[i])].text);
    }
  }

  /** The first extension whose candidate loads wins, whatever the later
      candidates hold. */
  lemma ResolveFirstWins(store: Store, root: string, folder: string, fileName: string, extensions: seq<string>)
    requires |extensions| > 0 && Loads(store, CandidatePath(root, folder, fileName, extensions[0]))
    ensures Resolve(store, root, folder, fileName, extensions)
         == Some(Trim(store[CandidatePath(root, folder, fileName, extensions[0])].text))
  {
  }

  /** A candidate that is missing, unreadable or whose read fails is
      skipped: the lookup falls through to the remaining extensions. */
  lemma {:induction false} ResolveFallsThrough(store: Store, root: string, folder: string, fileName: string, extensions: seq<string>)
    requires |extensions| > 0 && !Loads(store, CandidatePath(root, folder, fileName, extensions[0]))
    ensures Resolve(store, root, folder, fileName, extensions) == Resolve(store, root, folder, fileName, extensions[1..])
  {
    var ps := Candidates(root, folder, fileName, extensions);
    var qs := Candidates(root, folder, fileName, extensions[1..]);
    assert ps[1..] == qs;
    match FirstLoadable(store, qs)
    case None =>
    case Some(i) =>
      assert ps[i + 1] == qs[i];
  }

  /** The probing loop as the source writes it: try each extension in turn,
      skip unreadable candidates and candidates whose read fails, return on
      the first successful read. */
  method ProbeExtensions(store: Store, root: string, folder: string, fileName: string, extensions: seq<string>)
    returns (r: Option<string>)
    ensures r == Resolve(store, root, folder, fileName, extensions)
    ensures r.None? <==> forall i :: 0 <= i < |extensions| ==> !Loads(store, CandidatePath(root, folder, fileName, extensions[i]))
    ensures r.Some? ==> exists i :: IsFirstLoadable(store, Candidates(root, folder, fileName, extensions), i)
                                && r.value == Trim(store[CandidatePath(root, folder, fileName, extensions[i])].text)
  {
    ghost var ps := Candidates(root, folder, fileName, extensions);
    var k := 0;
    while k < |extensions|
      invariant 0 <= k <= |extensions|
      invariant forall j :: 0 <= j < k ==> !Loads(store, ps[j])
    {
      var path := CandidatePath(root, folder, fileName, extensions[k]);
      if path in store {
        match store[path]
        case Content(text) =>
          assert IsFirstLoadable(store, ps, k);
          FirstLoadableUnique(store, ps, k, FirstLoadable(store, ps).value);
          return Some(Trim(text));
        case ReadFails =>
        case Unreadable =>
      }
      k := k + 1;
    }
    return None;
  }
}

=== FILE: folder_key.dfy ===
/** The operation folder: the key under which hand-written descriptions and
    examples of an operation are looked up, derived from its summary. */
module OperationFolder {
  import opened JavaStrings

  /** The folder key of a summary: its periods removed, its spaces replaced
      by underscores, then lower-cased. */
  function FolderKey(summary: string): (r: string)
    ensures '.' !in r && ' ' !in r
    ensures forall i :: 0 <= i < |r| ==> !('A' <= r[i] <= 'Z')
    ensures |r| <= |summary|
  {
    var replaced := ReplaceAll(RemoveAll(summary, '.'), ' ', '_');
    var r := ToLowerCase(replaced);
    assert forall i :: 0 <= i < |r| ==> r[i] != ' ' && r[i] != '.' by {
      forall i | 0 <= i < |r| ensures r[i] != ' ' && r[i] != '.' {
        assert replaced[i] != ' ';
        assert replaced[i] in RemoveAll(summary, '.') || replaced[i] == '_';
      }
    }
    r
  }

  /** What one kept summary character becomes in the key. */
  function KeyChar(c: char): char {
    if c == ' ' then '_' else LowerChar(c)
  }

  /** A one-pass reference definition of the key: periods are dropped, every
      other character is mapped through KeyChar. */
  function FolderKeyRef(s: string): string {
    if |s| == 0 then ""
    else (if s[0] == '.' then "" else [KeyChar(s[0])]) + FolderKeyRef(s[1..])
  }

  lemma ReplaceAllConcat(x: string, y: string, c: char, d: char)
    ensures ReplaceAll(x + y, c, d) == ReplaceAll(x, c, d) + ReplaceAll(y, c, d)
  {
    assert forall i :: 0 <= i < |x + y| ==> ReplaceAll(x + y, c, d)[i] == (ReplaceAll(x, c, d) + ReplaceAll(y, c, d))[i];
  }

  lemma ToLowerCaseConcat(x: string, y: string)
    ensures ToLowerCase(x + y) == ToLowerCase(x) + ToLowerCase(y)
  {
    assert forall i :: 0 <= i < |x + y| ==> ToLowerCase(x + y)[i] == (ToLowerCase(x) + ToLowerCase(y))[i];
  }

  /** The three-pass derivation of the source agrees with the one-pass reference. */
  lemma {:induction false} FolderKeyMatchesReference(s: string)
    ensures FolderKey(s) == FolderKeyRef(s)
    decreases |s|
  {
    if |s| > 0 {
      FolderKeyMatchesReference(s[1..]);
      var head := if s[0] == '.' then "" else [s[0]];
      assert RemoveAll(s, '.') == head + RemoveAll(s[1..], '.');
      ReplaceAllConcat(head, RemoveAll(s[1..], '.'), ' ', '_');
      ToLowerCaseConcat(ReplaceAll(head, ' ', '_'), ReplaceAll(RemoveAll(s[1..], '.'), ' ', '_'));
    }
  }

  lemma {:induction false} RemoveAllAbsent(s: string, c: char)
    requires c !in s
    ensures RemoveAll(s, c) == s
    decreases |s|
  {
    if |s| > 0 {
      assert s[0] != c;
      RemoveAllAbsent(s[1..], c);
      assert s == [s[0]] + s[1..];
    }
  }

  /** Deriving the key of a key changes nothing. */
  lemma FolderKeyIdempotent(s: string)
    ensures FolderKey(FolderKey(s)) == FolderKey(s)
  {
    var k := FolderKey(s);
    RemoveAllAbsent(k, '.');
    assert ReplaceAll(k, ' ', '_') == k;
    assert ToLowerCase(k) == k;
  }

  /** A key character is whitespace exactly when the summary character was
      whitespace other than the space itself. */
  lemma KeyCharWhitespace(c: char)
    ensures IsWhitespace(KeyChar(c)) <==> c != ' ' && IsWhitespace(c)
  {
  }

  /** The key is blank exactly when every summary character is a period or
      whitespace other than a space. A blank summary therefore need not have
      a blank key ("  " gives "__"), and a summary that is not blank can have
      a blank key ("." gives ""). */
  lemma {:induction false} FolderKeyBlank(s: string)
    ensures IsBlank(FolderKey(s)) <==> forall i :: 0 <= i < |s| ==> s[i] == '.' || (s[i] != ' ' && IsWhitespace(s[i]))
  {
    FolderKeyMatchesReference(s);
    RefBlank(s);
  }

  lemma {:induction false} RefBlank(s: string)
    ensures IsBlank(FolderKeyRef(s)) <==> forall i :: 0 <= i < |s| ==> s[i] == '.' || (s[i] != ' ' && IsWhitespace(s[i]))
    decreases |s|
  {
    if |s| > 0 {
      RefBlank(s[1..]);
      KeyCharWhitespace(s[0]);
      var head := if s[0] == '.' then "" else [KeyChar(s[0])];
      assert FolderKeyRef(s) == head + FolderKeyRef(s[1..]);
      BlankConcat(head, FolderKeyRef(s[1..]));
      assert (forall i :: 0 <= i < |s| ==> s[i] == '.' || (s[i] != ' ' && IsWhitespace(s[i])))
         <==> (s[0] == '.' || (s[0] != ' ' && IsWhitespace(s[0])))
              && (forall i :: 0 <= i < |s[1..]| ==> s[1..][i] == '.' || (s[1..][i] != ' ' && IsWhitespace(s[1..][i])));
    }
  }

  lemma BlankConcat(x: string, y: string)
    ensures IsBlank(x + y) <==> IsBlank(x) && IsBlank(y)
  {
    if IsBlank(x) && IsBlank(y) {
      forall i | 0 <= i < |x + y| ensures IsWhitespace((x + y)[i]) {
        if i >= |x| { assert (x + y)[i] == y[i - |x|]; }
      }
    }
    if IsBlank(x + y) {
      assert forall i :: 0 <= i < |x| ==> (x + y)[i] == x[i];
      assert forall i :: 0 <= i < |y| ==> (x + y)[|x| + i] == y[i];
    }
  }

  lemma {:induction false} RefConcat(x: string, y: string)
    ensures FolderKeyRef(x + y) == FolderKeyRef(x) + FolderKeyRef(y)
    decreases |x|
  {
    if |x| == 0 {
      assert x + y == y;
    } else {
      assert (x + y)[0] == x[0];
      assert (x + y)[1..] == x[1..] + y;
      RefConcat(x[1..], y);
    }
  }

  // ---------------------------------------------------------------------
  // Examples. The lemmas up to FolderKeyExample only serve to work out the
  // example "Get User Info." word by word; they state nothing about the
  // model beyond it.
  // ---------------------------------------------------------------------

  lemma RefGet() ensures FolderKeyRef("Get ") == "get_" {}
  lemma RefUser() ensures FolderKeyRef("User ") == "user_" {}
  lemma RefInfo() ensures FolderKeyRef("Info.") == "info" {}
  lemma RefJoin() ensures "get_" + "user_" + "info" == "get_user_info" {}

  lemma RefExample(summary: string)
    requires summary == "Get User Info."
    ensures FolderKeyRef(summary) == "get_user_info"
  {
    var get, user, info := "Get ", "User ", "Info.";
    RefGet();
    RefUser();
    RefInfo();
    SplitExample(summary);
    RefConcat(get + user, info);
    RefConcat(get, user);
    RefJoin();
  }

  lemma SplitExample(summary: string)
    requires summary == "Get User Info."
    ensures summary == "Get " + "User " + "Info."
  {
  }

  /** An example: "Get User Info." gives "get_user_info". */
  lemma FolderKeyExample(summary: string)
    requires summary == "Get User Info."
    ensures FolderKey(summary) == "get_user_info"
  {
    RefExample(summary);
    FolderKeyMatchesReference(summary);
  }

  /** The two summaries on which the blankness of summary and key disagree. */
  lemma BlanknessDisagrees()
    ensures IsBlank("  ") && FolderKey("  ") == "__" && !IsBlank("__")
    ensures !IsBlank(".") && FolderKey(".") == "" && IsBlank("")
  {
    FolderKeyMatchesReference("  ");
    FolderKeyMatchesReference(".");
    assert !IsWhitespace("__"[0]);
    assert !IsWhitespace("."[0]);
  }
}

=== FILE: java_strings.dfy ===
/** The string operations of the JDK and of Apache Commons Lang that the
    renderer relies on, restricted to the behaviour it exercises. */
module JavaStrings {
  import opened Wrappers

  /** Character.isWhitespace: the ASCII separators and the Unicode space
      separators other than the non-breaking ones. */
  predicate IsWhitespace(c: char) {
    || c == ' ' || c == '\t' || c == '\n' || c == '\U{B}' || c == '\U{C}' || c == '\r'
    || ('\U{1C}' <= c <= '\U{1F}')
    || c == '\U{1680}' || ('\U{2000}' <= c <= '\U{2006}') || ('\U{2008}' <= c <= '\U{200A}')
    || c == '\U{2028}' || c == '\U{2029}' || c == '\U{205F}' || c == '\U{3000}'
  }

  /** StringUtils.isBlank on a non-null string: empty or whitespace only. */
  predicate IsBlank(s: string) {
    forall i :: 0 <= i < |s| ==> IsWhitespace(s[i])
  }

  /** StringUtils.isBlank on a nullable string: null counts as blank. */
  predicate IsBlankOrNull(s: Option<string>) {
    s.None? || IsBlank(s.value)
  }

  /** StringUtils.defaultString: null becomes the empty string. */
  function DefaultString(s: Option<string>): (r: string)
    ensures s.Some? ==> r == s.value
    ensures s.None? ==> r == ""
  {
    s.GetOr("")
  }

  /** The characters String.trim removes: every code point up to and including the space. */
  predicate IsTrimmable(c: char) {
    c <= ' '
  }

  /** Number of trimmable characters at the front of s. */
  function LeadingTrimmable(s: string): (n: nat)
    ensures n <= |s|
    ensures forall i :: 0 <= i < n ==> IsTrimmable(s[i])
    ensures n < |s| ==> !IsTrimmable(s[n])
  {
    if |s| == 0 || !IsTrimmable(s[0]) then 0 else 1 + LeadingTrimmable(s[1..])
  }

  /** Number of trimmable characters at the back of s. */
  function TrailingTrimmable(s: string): (n: nat)
    ensures n <= |s|
    ensures forall i :: |s| - n <= i < |s| ==> IsTrimmable(s[i])
    ensures n < |s| ==> !IsTrimmable(s[|s| - n - 1])
  {
    if |s| == 0 || !IsTrimmable(s[|s| - 1]) then 0 else 1 + TrailingTrimmable(s[..|s| - 1])
  }

  /** String.trim: s without its leading and trailing characters up to the space. */
  function Trim(s: string): (r: string)
    ensures LeadingTrimmable(s) + |r| <= |s|
    ensures r == s[LeadingTrimmable(s)..LeadingTrimmable(s) + |r|]
    ensures forall i :: 0 <= i < LeadingTrimmable(s) ==> IsTrimmable(s[i])
    ensures forall i :: LeadingTrimmable(s) + |r| <= i < |s| ==> IsTrimmable(s[i])
    ensures |r| > 0 ==> !IsTrimmable(r[0]) && !IsTrimmable(r[|r| - 1])
  {
    var tail := s[LeadingTrimmable(s)..];
    tail[..|tail| - TrailingTrimmable(tail)]
  }

  /** Trimming a trimmed string changes nothing. */
  lemma TrimIdempotent(s: string)
    ensures Trim(Trim(s)) == Trim(s)
  {
    var r := Trim(s);
    assert LeadingTrimmable(r) == 0;
    assert r[0..] == r;
    assert TrailingTrimmable(r) == 0;
  }

  /** Lower-casing of one character, restricted to ASCII letters. */
  function LowerChar(c: char): (d: char)
  {
    if 'A' <= c <= 'Z' then (c as int + 32) as char else c
  }

  /** Upper-casing of one character, restricted to ASCII letters. */
  function UpperChar(c: char): (d: char)
  {
    if 'a' <= c <= 'z' then (c as int - 32) as char else c
  }

  /** String.toLowerCase, restricted to ASCII letters. */
  function ToLowerCase(s: string): (r: string)
    ensures |r| == |s|
    ensures forall i :: 0 <= i < |s| ==> r[i] == LowerChar(s[i])
  {
    if |s| == 0 then "" else [LowerChar(s[0])] + ToLowerCase(s[1..])
  }

  /** String.replace(c, "") for a one-character target: every c deleted. */
  function RemoveAll(s: string, c: char): (r: string)
    ensures |r| <= |s|
    ensures c !in r
    ensures forall d :: d in r ==> d in s
  {
    if |s| == 0 then ""
    else if s[0] == c then RemoveAll(s[1..], c)
    else [s[0]] + RemoveAll(s[1..], c)
  }

  /** String.replace(c, d) for one-character target and replacement. */
  function ReplaceAll(s: string, c: char, d: char): (r: string)
    ensures |r| == |s|
    ensures forall i :: 0 <= i < |s| ==> r[i] == (if s[i] == c then d else s[i])
  {
    if |s| == 0 then "" else [if s[0] == c then d else s[0]] + ReplaceAll(s[1..], c, d)
  }

  /** A character of s starts a word: it is the first one (when s starts
      a word) or it follows whitespace. */
  predicate StartsWord(s: string, i: int, atStart: bool)
    requires 0 <= i < |s|
  {
    if i == 0 then atStart else IsWhitespace(s[i - 1])
  }

  /** The capitalisation loop of WordUtils.capitalize; atStart tells whether
      the first character begins a word. */
  function CapitalizeFrom(s: string, atStart: bool): (r: string)
    ensures |r| == |s|
    ensures forall i :: 0 <= i < |s| ==> r[i] == if StartsWord(s, i, atStart) then UpperChar(s[i]) else s[i]
  {
    if |s| == 0 then ""
    else
      var rest := CapitalizeFrom(s[1..], IsWhitespace(s[0]));
      assert forall i :: 1 <= i < |s| ==> StartsWord(s, i, atStart) == StartsWord(s[1..], i - 1, IsWhitespace(s[0]));
      [if atStart then UpperChar(s[0]) else s[0]] + rest
  }

  /** WordUtils.capitalize: the first character of every whitespace-delimited
      word upper-cased, everything else unchanged. */
  function Capitalize(s: string): (r: string)
    ensures |r| == |s|
    ensures forall i :: 0 <= i < |s| ==> r[i] == if i == 0 || IsWhitespace(s[i - 1]) then UpperChar(s[i]) else s[i]
  {
    CapitalizeFrom(s, true)
  }

  /** Capitalising keeps the word boundaries, so capitalising twice changes
      nothing more. */
  lemma CapitalizeIdempotent(s: string)
    ensures Capitalize(Capitalize(s)) == Capitalize(s)
  {
    var r := Capitalize(s);
    forall i | 0 <= i < |s| ensures IsWhitespace(r[i]) <==> IsWhitespace(s[i]) { }
  }

  /** Boolean.toString. */
  function BoolString(b: bool): (r: string)
    ensures r == "true" <==> b
    ensures r == "false" <==> !b
  {
    if b then "true" else "false"
  }
}

=== FILE: markup.dfy ===
/** The markup document as a sequence of events, one per call the renderer
    makes on its document builder. */
module Markup {

  /** sectionTitleLevelN, listing, paragraph, unorderedList and
      tableWithHeaderRow. A table row is its list of cells; joining the
      cells with the builder's delimiter is the builder's business. */
  datatype Event =
    | Heading(level: nat, text: string)
    | Listing(text: string)
    | Paragraph(text: string)
    | List(items: seq<string>)
    | Table(rows: seq<seq<string>>)

  /** The texts of the headings, in document order. */
  function HeadingTexts(es: seq<Event>): (r: seq<string>)
    ensures |r| <= |es|
  {
    if |es| == 0 then []
    else (if es[0].Heading? then [es[0].text] else []) + HeadingTexts(es[1..])
  }

  /** The texts of the headings at one level, in document order. */
  function HeadingsAt(es: seq<Event>, level: nat): (r: seq<string>)
    ensures |r| <= |es|
  {
    if |es| == 0 then []
    else (if es[0].Heading? && es[0].level == level then [es[0].text] else []) + HeadingsAt(es[1..], level)
  }

  // The two lemmas below restate facts about concatenation over plain
  // values, so that a proof using them does not see what the parts are
  // and the solver does not unfold them.

  /** Moving a split point in a concatenation. */
  lemma Reassociate<T>(whole: seq<T>, x: seq<T>, rest: seq<T>, y: seq<T>, z: seq<T>, front: seq<T>)
    requires whole == x + rest && rest == y + z && front == x + y
    ensures whole == front + z
  {
  }

  /** Dropping empty parts from a concatenation of four. */
  lemma DropEmpty<T>(whole: seq<T>, a: seq<T>, b: seq<T>, c: seq<T>, d: seq<T>)
    requires whole == a + b + c + d
    ensures b == [] ==> whole == a + (c + d)
    ensures b == [] && c == [] ==> whole == a + d
    ensures a == [] && b == [] ==> whole == c + d
  {
  }

  lemma {:induction false} HeadingTextsConcat(a: seq<Event>, b: seq<Event>)
    ensures HeadingTexts(a + b) == HeadingTexts(a) + HeadingTexts(b)
    decreases |a|
  {
    if |a| == 0 {
      assert a + b == b;
    } else {
      var rest := a[1..] + b;
      assert (a + b)[0] == a[0];
      assert (a + b)[1..] == rest;
      var x := if a[0].Heading? then [a[0].text] else [];
      assert HeadingTexts(a + b) == x + HeadingTexts(rest);
      assert HeadingTexts(a) == x + HeadingTexts(a[1..]);
      HeadingTextsConcat(a[1..], b);
      Reassociate(HeadingTexts(a + b), x, HeadingTexts(rest), HeadingTexts(a[1..]), HeadingTexts(b), HeadingTexts(a));
    }
  }

  lemma {:induction false} HeadingsAtConcat(a: seq<Event>, b: seq<Event>, level: nat)
    ensures HeadingsAt(a + b, level) == HeadingsAt(a, level) + HeadingsAt(b, level)
    decreases |a|
  {
    if |a| == 0 {
      assert a + b == b;
    } else {
      var rest := a[1..] + b;
      assert (a + b)[0] == a[0];
      assert (a + b)[1..] == rest;
      var x := if a[0].Heading? && a[0].level == level then [a[0].text] else [];
      assert HeadingsAt(a + b, level) == x + HeadingsAt(rest, level);
      assert HeadingsAt(a, level) == x + HeadingsAt(a[1..], level);
      HeadingsAtConcat(a[1..], b, level);
      Reassociate(HeadingsAt(a + b, level), x, HeadingsAt(rest, level), HeadingsAt(a[1..], level), HeadingsAt(b, level), HeadingsAt(a, level));
    }
  }

  /** No heading of the events is at the given level. */
  lemma {:induction false} HeadingsAtNone(es: seq<Event>, level: nat)
    requires forall i :: 0 <= i < |es| && es[i].Heading? ==> es[i].level != level
    ensures HeadingsAt(es, level) == []
    decreases |es|
  {
    if |es| > 0 {
      HeadingsAtNone(es[1..], level);
    }
  }

  /** The outline down to a depth: the texts of the headings at that level
      or above, in document order. */
  function HeadingsUpTo(es: seq<Event>, depth: nat): (r: seq<string>)
    ensures |r| <= |es|
  {
    if |es| == 0 then []
    else (if es[0].Heading? && es[0].level <= depth then [es[0].text] else []) + HeadingsUpTo(es[1..], depth)
  }

  lemma {:induction false} HeadingsUpToConcat(a: seq<Event>, b: seq<Event>, depth: nat)
    ensures HeadingsUpTo(a + b, depth) == HeadingsUpTo(a, depth) + HeadingsUpTo(b, depth)
    decreases |a|
  {
    if |a| == 0 {
      assert a + b == b;
    } else {
      var rest := a[1..] + b;
      assert (a + b)[0] == a[0];
      assert (a + b)[1..] == rest;
      var x := if a[0].Heading? && a[0].level <= depth then [a[0].text] else [];
      assert HeadingsUpTo(a + b, depth) == x + HeadingsUpTo(rest, depth);
      assert HeadingsUpTo(a, depth) == x + HeadingsUpTo(a[1..], depth);
      HeadingsUpToConcat(a[1..], b, depth);
      Reassociate(HeadingsUpTo(a + b, depth), x, HeadingsUpTo(rest, depth), HeadingsUpTo(a[1..], depth), HeadingsUpTo(b, depth), HeadingsUpTo(a, depth));
    }
  }

  /** Events with no heading at a level hold none there. */
  lemma {:induction false} HeadingsAtEmpty(es: seq<Event>, level: nat)
    requires HeadingsAt(es, level) == []
    ensures forall i :: 0 <= i < |es| && es[i].Heading? ==> es[i].level != level
    decreases |es|
  {
    if |es| > 0 {
      assert !(es[0].Heading? && es[0].level == level);
      HeadingsAtEmpty(es[1..], level);
      forall i | 1 <= i < |es| && es[i].Heading? ensures es[i].level != level {
        assert es[1..][i - 1] == es[i];
      }
    }
  }

  /** When no heading lies above a depth, the outline down to that depth is
      the headings at it. */
  lemma {:induction false} HeadingsUpToAt(es: seq<Event>, depth: nat)
    requires forall i :: 0 <= i < |es| && es[i].Heading? ==> es[i].level >= depth
    ensures HeadingsUpTo(es, depth) == HeadingsAt(es, depth)
    decreases |es|
  {
    if |es| > 0 {
      forall i | 0 <= i < |es[1..]| && es[1..][i].Heading? ensures es[1..][i].level >= depth {
        assert es[1..][i] == es[i + 1];
      }
      HeadingsUpToAt(es[1..], depth);
    }
  }

  /** A run of sections: each one heading at `level` immediately followed by
      one event that is not a heading. */
  predicate Sections(es: seq<Event>, level: nat)
    decreases |es|
  {
    || |es| == 0
    || (&& |es| >= 2
        && es[0].Heading? && es[0].level == level
        && !es[1].Heading?
        && Sections(es[2..], level))
  }

  lemma {:induction false} SectionsConcat(a: seq<Event>, b: seq<Event>, level: nat)
    requires Sections(a, level) && Sections(b, level)
    ensures Sections(a + b, level)
    decreases |a|
  {
    if |a| == 0 {
      assert a + b == b;
    } else {
      assert (a + b)[2..] == a[2..] + b;
      SectionsConcat(a[2..], b, level);
    }
  }

  /** In a run of sections every heading is at the run's level and is
      followed by content. */
  lemma {:induction false} SectionsShape(es: seq<Event>, level: nat)
    requires Sections(es, level)
    ensures forall i :: 0 <= i < |es| && es[i].Heading? ==>
      es[i].level == level && i + 1 < |es| && !es[i + 1].Heading?
    decreases |es|
  {
    if |es| > 0 {
      SectionsShape(es[2..], level);
      forall i | 2 <= i < |es| && es[i].Heading?
        ensures es[i].level == level && i + 1 < |es| && !es[i + 1].Heading?
      {
        assert es[2..][i - 2] == es[i];
      }
    }
  }

  /** No event is a listing. */
  predicate NoListing(es: seq<Event>) {
    forall i :: 0 <= i < |es| ==> !es[i].Listing?
  }

  lemma NoListingConcat(a: seq<Event>, b: seq<Event>)
    requires NoListing(a) && NoListing(b)
    ensures NoListing(a + b)
  {
    forall i | 0 <= i < |a + b| ensures !(a + b)[i].Listing? {
      if i >= |a| { assert (a + b)[i] == b[i - |a|]; }
    }
  }

  /** Lists have items and tables have a row besides the header. */
  predicate NoEmptyContent(es: seq<Event>) {
    forall i :: 0 <= i < |es| ==>
      && (es[i].List? ==> |es[i].items| > 0)
      && (es[i].Table? ==> |es[i].rows| >= 2)
  }

  lemma NoEmptyContentConcat(a: seq<Event>, b: seq<Event>)
    requires NoEmptyContent(a) && NoEmptyContent(b)
    ensures NoEmptyContent(a + b)
  {
    forall i | 0 <= i < |a + b|
      ensures ((a + b)[i].List? ==> |(a + b)[i].items| > 0) && ((a + b)[i].Table? ==> |(a + b)[i].rows| >= 2)
    {
      if i >= |a| { assert (a + b)[i] == b[i - |a|]; }
    }
  }
}

=== FILE: model_utils.dfy ===
/** ModelUtils.getType: the display string of a schema model. */
module ModelUtils {
  import opened Wrappers
  import opened SwaggerModel

  const NotFound := "NOT FOUND"

  /** The display type of a non-null model. A model implementation shows its
      declared type; a reference shows its target, as a cross reference under
      AsciiDoc; an array shows its item type followed by its own type; any
      other kind of model shows the sentinel. PropertyUtils.getType is the
      parameter `propertyType`. */
  function GetType(model: Model, language: MarkupLanguage, propertyType: (Property, MarkupLanguage) -> string): (r: string)
    ensures model.ModelImpl? ==> r == model.declaredType
    ensures model.RefModel? && language == Asciidoc ==> r == "<<" + model.simpleRef + ">>"
    ensures model.RefModel? && language != Asciidoc ==> r == model.simpleRef
    ensures model.ArrayModel? ==>
      && |r| == |propertyType(model.items, language)| + 1 + |model.arrayType|
      && r[..|propertyType(model.items, language)|] == propertyType(model.items, language)
      && r[|r| - |model.arrayType| - 1..] == " " + model.arrayType
    ensures model.OtherModel? ==> r == NotFound
  {
    match model
    case ModelImpl(t) => t
    case RefModel(ref) =>
      (match language
       case Asciidoc => "<<" + ref + ">>"
       case _ => ref)
    case ArrayModel(items, t) => propertyType(items, language) + " " + t
    case OtherModel => NotFound
  }

  /** The message Validate.notNull throws with. */
  const NullModelMessage := "model must not be null!"

  /** getType including its null check: a null model is rejected with the
      validation message, every non-null model is formatted and never fails. */
  function GetTypeChecked(model: Option<Model>, language: MarkupLanguage, propertyType: (Property, MarkupLanguage) -> string): (r: Result<string, string>)
    ensures r.Failure? <==> model.None?
    ensures r.Failure? ==> r.error == NullModelMessage
    ensures r.Success? ==> r.value == GetType(model.value, language, propertyType)
  {
    match model
    case None => Failure(NullModelMessage)
    case Some(m) => Success(GetType(m, language, propertyType))
  }

  /** Under AsciiDoc the reference target can be read back from its cross reference. */
  lemma CrossReferenceRoundTrip(ref: string, propertyType: (Property, MarkupLanguage) -> string)
    ensures var r := GetType(RefModel(ref), Asciidoc, propertyType);
            |r| == |ref| + 4 && r[2..|r| - 2] == ref
  {
  }

  /** The markup language changes the display type of a reference and of
      nothing else (given a property formatter that ignores it): a reference
      reads differently under AsciiDoc and Markdown, every other model the
      same. */
  lemma LanguageOnlyAffectsReferences(model: Model, propertyType: (Property, MarkupLanguage) -> string)
    requires model.ArrayModel? ==> propertyType(model.items, Asciidoc) == propertyType(model.items, Markdown)
    ensures GetType(model, Asciidoc, propertyType) != GetType(model, Markdown, propertyType) <==> model.RefModel?
  {
    if model.RefModel? {
      var a := GetType(model, Asciidoc, propertyType);
      assert |a| == |model.simpleRef| + 4;
    }
  }

  /** An array of strings whose own type is "array" (the type an ArrayModel
      carries unless it is set otherwise) reads "string array". */
  lemma StringArrayExample(items: Property, arrayType: string, language: MarkupLanguage,
                           propertyType: (Property, MarkupLanguage) -> string)
    requires propertyType(items, language) == "string" && arrayType == "array"
    ensures GetType(ArrayModel(items, arrayType), language, propertyType) == "string array"
  {
    assert "string" + " " + "array" == "string array";
  }
}

=== FILE: paths_document.dfy ===
/** PathsDocument: renders the paths of a Swagger model, one section per
    operation, as a sequence of markup events. The filesystem is a FileStore,
    the collaborators whose code is not modelled are parameters, and logging
    is left out. */
module PathsDocument {
  import opened Wrappers
  import opened JavaStrings
  import opened FileStore
  import opened Markup
  import opened SwaggerModel
  import opened OperationFolder

  const PathsTitle := "Paths"
  const ResourcesTitle := "Resources"
  const ParametersTitle := "Parameters"
  const ResponsesTitle := "Responses"
  const ExampleCurlTitle := "Example CURL request"
  const ExampleRequestTitle := "Example HTTP request"
  const ExampleResponseTitle := "Example HTTP response"
  const TypeColumn := "Type"
  const HttpCodeColumn := "HTTP Code"
  const RequestExampleFile := "http-request"
  const ResponseExampleFile := "http-response"
  const CurlExampleFile := "curl-request"
  const DescriptionFile := "description"
  const ParameterSuffix := "Parameter"
  const NoContent := "No Content"

  // Titles and column names inherited from MarkupDocument.
  const DescriptionTitle := "Description"
  const ConsumesTitle := "Consumes"
  const ProducesTitle := "Produces"
  const TagsTitle := "Tags"
  const NameColumn := "Name"
  const DescriptionColumn := "Description"
  const RequiredColumn := "Required"
  const SchemaColumn := "Schema"
  const DefaultColumn := "Default"

  const ParameterHeader: seq<string> :=
    [TypeColumn, NameColumn, DescriptionColumn, RequiredColumn, SchemaColumn, DefaultColumn]
  const ResponseHeader: seq<string> := [HttpCodeColumn, DescriptionColumn, SchemaColumn]

  /** The state of a PathsDocument after construction. The folders of a
      disabled feature are never read. */
  datatype Settings = Settings(
    groupBy: GroupBy,
    language: MarkupLanguage,
    extensions: seq<string>,
    examplesEnabled: bool,
    examplesFolder: string,
    descriptionsEnabled: bool,
    descriptionsFolder: string)

  /** The constructor: a feature is enabled exactly when its folder is
      configured and not blank; hand-written descriptions of paths live in
      the "paths" sub-folder of the configured folder. */
  function Configure(config: Config): (s: Settings)
    ensures s.groupBy == config.groupBy && s.language == config.language && s.extensions == config.extensions
    ensures s.examplesEnabled <==> !IsBlankOrNull(config.examplesFolder)
    ensures s.examplesEnabled ==> s.examplesFolder == config.examplesFolder.value
    ensures s.descriptionsEnabled <==> !IsBlankOrNull(config.descriptionsFolder)
    ensures s.descriptionsEnabled ==> s.descriptionsFolder == config.descriptionsFolder.value + "/paths"
  {
    var examples := !IsBlankOrNull(config.examplesFolder);
    var descriptions := !IsBlankOrNull(config.descriptionsFolder);
    assert ToLowerCase(PathsTitle) == "paths";
    Settings(
      config.groupBy, config.language, config.extensions,
      examples, if examples then config.examplesFolder.value else "",
      descriptions, if descriptions then config.descriptionsFolder.value + "/" + ToLowerCase(PathsTitle) else "")
  }

  /** Heading level of an operation's title: one deeper under tag grouping,
      where a tag section sits above it. */
  function TitleLevel(g: GroupBy): nat {
    match g
    case AsIs => 2
    case ByTag => 3
  }

  /** Heading level of the subsections inside an operation. */
  function SectionLevel(g: GroupBy): nat {
    TitleLevel(g) + 1
  }

  /** handWrittenPathDescription: a hand-written description file under the
      descriptions folder. */
  function HandWrittenPathDescription(s: Settings, store: Store, folder: string, fileName: string): Option<string>
  {
    Resolve(store, s.descriptionsFolder, folder, fileName, s.extensions)
  }

  /** example: an example file under the examples folder. */
  function Example(s: Settings, store: Store, folder: string, fileName: string): Option<string>
  {
    Resolve(store, s.examplesFolder, folder, fileName, s.extensions)
  }

  /** pathTitle and addPathTitle: the summary as title with the method and
      path as a listing beneath it, or the method and path as title when the
      summary is blank. */
  function PathTitle(s: Settings, methodAndPath: string, op: Operation): (r: seq<Event>)
    ensures 1 <= |r| <= 2 && r[0].Heading? && r[0].level == TitleLevel(s.groupBy)
    ensures |r| == 2 <==> !IsBlankOrNull(op.summary)
    ensures |r| == 2 ==> r[0].text == op.summary.value && r[1] == Listing(methodAndPath)
    ensures |r| == 1 ==> r[0].text == methodAndPath
  {
    if !IsBlankOrNull(op.summary) then
      [Heading(TitleLevel(s.groupBy), op.summary.value), Listing(methodAndPath)]
    else
      [Heading(TitleLevel(s.groupBy), methodAndPath)]
  }

  /** The description descriptionSection hands on: a hand-written one found
      under the operation folder replaces the Swagger description; the
      lookup only happens when descriptions are enabled and the summary
      itself is not blank. */
  function OperationDescription(s: Settings, store: Store, op: Operation): (r: Option<string>)
    ensures !s.descriptionsEnabled || IsBlankOrNull(op.summary) ==> r == op.description
    ensures s.descriptionsEnabled && !IsBlankOrNull(op.summary) ==>
      var found := HandWrittenPathDescription(s, store, FolderKey(op.summary.value), DescriptionFile);
      (found.Some? ==> r == found) && (found.None? ==> r == op.description)
  {
    if s.descriptionsEnabled && !IsBlankOrNull(op.summary) then
      match HandWrittenPathDescription(s, store, FolderKey(op.summary.value), DescriptionFile)
      case Some(d) => Some(d)
      case None => op.description
    else
      op.description
  }

  /** pathDescription: a Description subsection, or nothing for a blank or
      null description. */
  function PathDescription(s: Settings, description: Option<string>): (r: seq<Event>)
    ensures r == [] <==> IsBlankOrNull(description)
    ensures r != [] ==> r == [Heading(SectionLevel(s.groupBy), DescriptionTitle), Paragraph(description.value)]
  {
    if !IsBlankOrNull(description) then
      [Heading(SectionLevel(s.groupBy), DescriptionTitle), Paragraph(description.value)]
    else
      []
  }

  /** descriptionSection: the Description subsection of the description
      that wins the override chain. */
  function DescriptionSection(s: Settings, store: Store, op: Operation): (r: seq<Event>)
    ensures !s.descriptionsEnabled || IsBlankOrNull(op.summary) ==> (r == [] <==> IsBlankOrNull(op.description))
    ensures r != [] ==> |r| == 2 && r[0] == Heading(SectionLevel(s.groupBy), DescriptionTitle) && r[1].Paragraph?
    ensures r != [] && (!s.descriptionsEnabled || IsBlankOrNull(op.summary)) ==> r[1] == Paragraph(op.description.value)
    ensures r == [] <==> IsBlankOrNull(OperationDescription(s, store, op))
    ensures r != [] ==> r[1] == Paragraph(OperationDescription(s, store, op).value)
    ensures s.descriptionsEnabled && !IsBlankOrNull(op.summary) ==>
      var found := HandWrittenPathDescription(s, store, FolderKey(op.summary.value), DescriptionFile);
      found.Some? ==> (r == [] <==> IsBlankOrNull(found)) && (r != [] ==> r[1] == Paragraph(found.value))
  {
    PathDescription(s, OperationDescription(s, store, op))
  }

  /** What parameterDescription needs to not dereference a null summary. */
  predicate SummaryReadable(s: Settings, op: Operation) {
    s.descriptionsEnabled && |op.parameters| > 0 ==> op.summary.Some?
  }

  /** parameterDescription: a hand-written description found under
      operationFolder/parameterName, else the parameter's own description,
      null read as empty. Unlike the operation's description it tests the
      derived folder for blankness, not the summary. */
  function ParameterDescription(s: Settings, store: Store, op: Operation, p: Parameter): (r: string)
    requires s.descriptionsEnabled ==> op.summary.Some?
    ensures !s.descriptionsEnabled ==> r == DefaultString(p.description)
    ensures s.descriptionsEnabled ==>
      var folder := FolderKey(op.summary.value);
      (IsBlank(folder) || IsBlank(p.name) ==> r == DefaultString(p.description))
      && (!IsBlank(folder) && !IsBlank(p.name) ==>
            r == HandWrittenPathDescription(s, store, folder + "/" + p.name, DescriptionFile).GetOr(DefaultString(p.description)))
  {
    if s.descriptionsEnabled then
      var folder := FolderKey(op.summary.value);
      if !IsBlank(folder) && !IsBlank(p.name) then
        match HandWrittenPathDescription(s, store, folder + "/" + p.name, DescriptionFile)
        case Some(d) => d
        case None => DefaultString(p.description)
      else
        DefaultString(p.description)
    else
      DefaultString(p.description)
  }

  /** One content row of the parameters table. */
  function ParameterRow(s: Settings, store: Store, c: Collaborators, op: Operation, p: Parameter): (row: seq<string>)
    requires s.descriptionsEnabled ==> op.summary.Some?
    ensures |row| == |ParameterHeader|
  {
    [ Capitalize(p.location + ParameterSuffix),
      p.name,
      ParameterDescription(s, store, op, p),
      BoolString(p.required),
      c.parameterType(p, s.language),
      c.defaultValue(p) ]
  }

  /** The content rows for a list of parameters, in list order. */
  function ParameterRows(s: Settings, store: Store, c: Collaborators, op: Operation, ps: seq<Parameter>): (rows: seq<seq<string>>)
    requires s.descriptionsEnabled ==> op.summary.Some?
    ensures |rows| == |ps|
    ensures forall i :: 0 <= i < |ps| ==> rows[i] == ParameterRow(s, store, c, op, ps[i])
  {
    if |ps| == 0 then [] else [ParameterRow(s, store, c, op, ps[0])] + ParameterRows(s, store, c, op, ps[1..])
  }

  /** parametersSection: a Parameters subsection with a table of one header
      row and one row per parameter, or nothing when there are none. */
  function ParametersSection(s: Settings, store: Store, c: Collaborators, op: Operation): (r: seq<Event>)
    requires SummaryReadable(s, op)
    ensures r == [] <==> |op.parameters| == 0
    ensures r != [] ==> (&& |r| == 2
                         && r[0] == Heading(SectionLevel(s.groupBy), ParametersTitle)
                         && r[1] == Table([ParameterHeader] + ParameterRows(s, store, c, op, op.parameters)))
  {
    if |op.parameters| > 0 then
      [ Heading(SectionLevel(s.groupBy), ParametersTitle),
        Table([ParameterHeader] + ParameterRows(s, store, c, op, op.parameters)) ]
    else
      []
  }

  /** One content row of the responses table. */
  function ResponseRow(s: Settings, c: Collaborators, code: string, response: Response): (row: seq<string>)
    ensures |row| == |ResponseHeader|
  {
    match response.schema
    case Some(property) => [code, response.description, c.propertyType(property, s.language)]
    case None => [code, response.description, NoContent]
  }

  /** The content rows for the response entries, in iteration order. */
  function ResponseRows(s: Settings, c: Collaborators, responses: seq<(string, Response)>): (rows: seq<seq<string>>)
    ensures |rows| == |responses|
    ensures forall i :: 0 <= i < |responses| ==> rows[i] == ResponseRow(s, c, responses[i].0, responses[i].1)
  {
    if |responses| == 0 then []
    else [ResponseRow(s, c, responses[0].0, responses[0].1)] + ResponseRows(s, c, responses[1..])
  }

  /** responsesSection: a Responses subsection with its table, or nothing
      when there are no responses. */
  function ResponsesSection(s: Settings, c: Collaborators, op: Operation): (r: seq<Event>)
    ensures r == [] <==> |op.responses| == 0
    ensures r != [] ==> (&& |r| == 2
                         && r[0] == Heading(SectionLevel(s.groupBy), ResponsesTitle)
                         && r[1] == Table([ResponseHeader] + ResponseRows(s, c, op.responses)))
  {
    if |op.responses| > 0 then
      [ Heading(SectionLevel(s.groupBy), ResponsesTitle),
        Table([ResponseHeader] + ResponseRows(s, c, op.responses)) ]
    else
      []
  }

  /** A titled list subsection, or nothing for an empty list. */
  function ListSection(level: nat, title: string, items: seq<string>): (r: seq<Event>)
    ensures r == [] <==> |items| == 0
    ensures r != [] ==> r == [Heading(level, title), List(items)]
  {
    if |items| > 0 then [Heading(level, title), List(items)] else []
  }

  /** consumesSection: the consumed media types, at the subsection level. */
  function ConsumesSection(s: Settings, op: Operation): (r: seq<Event>)
    ensures r == [] <==> |op.consumes| == 0
    ensures r != [] ==> r == [Heading(SectionLevel(s.groupBy), ConsumesTitle), List(op.consumes)]
  {
    ListSection(SectionLevel(s.groupBy), ConsumesTitle, op.consumes)
  }

  /** producesSection: the produced media types, at the subsection level. */
  function ProducesSection(s: Settings, op: Operation): (r: seq<Event>)
    ensures r == [] <==> |op.produces| == 0
    ensures r != [] ==> r == [Heading(SectionLevel(s.groupBy), ProducesTitle), List(op.produces)]
  {
    ListSection(SectionLevel(s.groupBy), ProducesTitle, op.produces)
  }

  /** tagsSection: only without tag grouping, always at level 3. */
  function TagsSection(s: Settings, op: Operation): (r: seq<Event>)
    ensures r != [] <==> s.groupBy == AsIs && |op.tags| > 0
    ensures r != [] ==> r == [Heading(3, TagsTitle), List(op.tags)]
  {
    if s.groupBy == AsIs then ListSection(3, TagsTitle, op.tags) else []
  }

  /** One example subsection, present when the example was found. */
  function ExampleBlock(s: Settings, title: string, example: Option<string>): (r: seq<Event>)
    ensures r == [] <==> example.None?
    ensures r != [] ==> r == [Heading(SectionLevel(s.groupBy), title), Paragraph(example.value)]
  {
    match example
    case Some(text) => [Heading(SectionLevel(s.groupBy), title), Paragraph(text)]
    case None => []
  }

  /** examplesSection: three independent probes under the operation folder,
      curl first, then request, then response; none when examples are
      disabled or the summary is blank. */
  function ExamplesSection(s: Settings, store: Store, op: Operation): (r: seq<Event>)
    ensures !s.examplesEnabled || IsBlankOrNull(op.summary) ==> r == []
  {
    if s.examplesEnabled && !IsBlankOrNull(op.summary) then
      var folder := FolderKey(op.summary.value);
      ExampleBlock(s, ExampleCurlTitle, Example(s, store, folder, CurlExampleFile))
      + (ExampleBlock(s, ExampleRequestTitle, Example(s, store, folder, RequestExampleFile))
      + ExampleBlock(s, ExampleResponseTitle, Example(s, store, folder, ResponseExampleFile)))
    else
      []
  }

  /** The subsections that follow an operation's title, in their fixed order. */
  function Subsections(s: Settings, store: Store, c: Collaborators, op: Operation): seq<Event>
    requires SummaryReadable(s, op)
  {
    DescriptionSection(s, store, op)
    + (ParametersSection(s, store, c, op)
    + (ResponsesSection(s, c, op)
    + (ConsumesSection(s, op)
    + (ProducesSection(s, op)
    + (TagsSection(s, op)
    + ExamplesSection(s, store, op))))))
  }

  /** path: the title and then the subsections of one operation; a null
      operation renders nothing. */
  function RenderOperation(s: Settings, store: Store, c: Collaborators, methodAndPath: string, op: Option<Operation>): (r: seq<Event>)
    requires op.Some? ==> SummaryReadable(s, op.value)
    ensures op.None? <==> r == []
  {
    match op
    case None => []
    case Some(o) => PathTitle(s, methodAndPath, o) + Subsections(s, store, c, o)
  }

  /** Every operation of a path item can be rendered. */
  predicate ItemReadable(s: Settings, item: PathItem) {
    forall i :: 0 <= i < |item.operations| && item.operations[i].1.Some? ==>
      SummaryReadable(s, item.operations[i].1.value)
  }

  /** Every operation of every non-null path item can be rendered. */
  predicate EntriesReadable(s: Settings, entries: seq<(string, Option<PathItem>)>) {
    forall i :: 0 <= i < |entries| && entries[i].1.Some? ==> ItemReadable(s, entries[i].1.value)
  }

  /** createPathSections: the operations of one path in their map order,
      each titled by its summary, or by "METHOD url" when the summary is
      blank. */
  function CreatePathSections(s: Settings, store: Store, c: Collaborators, pathUrl: string, ops: seq<(HttpMethod, Option<Operation>)>): (r: seq<Event>)
    requires ItemReadable(s, PathItem(ops))
    ensures |ops| == 0 ==> r == []
  {
    if |ops| == 0 then []
    else
      assert ItemReadable(s, PathItem(ops[1..])) by {
        forall i | 0 <= i < |ops[1..]| && ops[1..][i].1.Some? ensures SummaryReadable(s, ops[1..][i].1.value) {
          assert ops[1..][i] == ops[i + 1];
        }
      }
      RenderOperation(s, store, c, MethodName(ops[0].0) + " " + pathUrl, ops[0].1)
      + CreatePathSections(s, store, c, pathUrl, ops[1..])
  }

  /** The loop over path entries: null path items are skipped. */
  function PathEntries(s: Settings, store: Store, c: Collaborators, entries: seq<(string, Option<PathItem>)>): (r: seq<Event>)
    requires EntriesReadable(s, entries)
    ensures |entries| == 0 ==> r == []
  {
    if |entries| == 0 then []
    else
      assert EntriesReadable(s, entries[1..]) by {
        forall i | 0 <= i < |entries[1..]| && entries[1..][i].1.Some? ensures ItemReadable(s, entries[1..][i].1.value) {
          assert entries[1..][i] == entries[i + 1];
        }
      }
      (match entries[0].1
       case None => []
       case Some(item) => CreatePathSections(s, store, c, entries[0].0, item.operations))
      + PathEntries(s, store, c, entries[1..])
  }

  /** Every group of path entries can be rendered. */
  predicate GroupsReadable(s: Settings, groups: seq<(string, seq<(string, Option<PathItem>)>)>) {
    forall i :: 0 <= i < |groups| ==> EntriesReadable(s, groups[i].1)
  }

  /** The paragraph under a tag heading: the tag's description, if any. */
  function TagDescription(description: Option<string>): (r: seq<Event>)
    ensures r == [] <==> description.None?
    ensures description.Some? ==> r == [Paragraph(description.value)]
  {
    match description case Some(d) => [Paragraph(d)] case None => []
  }

  /** The loop over tag groups: a level-2 heading with the capitalised tag
      name, its description when there is one, then the tag's paths. */
  function TagGroups(s: Settings, store: Store, c: Collaborators, groups: seq<(string, seq<(string, Option<PathItem>)>)>,
                     tagDescription: string -> Option<string>): (r: seq<Event>)
    requires GroupsReadable(s, groups)
    ensures |groups| == 0 ==> r == []
  {
    if |groups| == 0 then []
    else
      var (tag, entries) := groups[0];
      assert GroupsReadable(s, groups[1..]) by {
        forall i | 0 <= i < |groups[1..]| ensures EntriesReadable(s, groups[1..][i].1) {
          assert groups[1..][i] == groups[i + 1];
        }
      }
      [Heading(2, Capitalize(tag))]
      + TagDescription(tagDescription(tag))
      + PathEntries(s, store, c, entries)
      + TagGroups(s, store, c, groups[1..], tagDescription)
  }

  /** paths: nothing for an empty path map; otherwise a "Paths" document in
      map order, or under tag grouping a "Resources" document over the
      groups that TagUtils.groupPathsByTag forms from the same paths. */
  function RenderPaths(s: Settings, store: Store, c: Collaborators, paths: seq<(string, Option<PathItem>)>,
                       groups: seq<(string, seq<(string, Option<PathItem>)>)>, tagDescription: string -> Option<string>): (r: seq<Event>)
    requires EntriesReadable(s, paths) && GroupsReadable(s, groups)
    ensures r == [] <==> |paths| == 0
    ensures |paths| > 0 && s.groupBy == AsIs ==> r[0] == Heading(1, PathsTitle)
    ensures |paths| > 0 && s.groupBy == ByTag ==> r[0] == Heading(1, ResourcesTitle)
  {
    if |paths| == 0 then []
    else if s.groupBy == AsIs then [Heading(1, PathsTitle)] + PathEntries(s, store, c, paths)
    else [Heading(1, ResourcesTitle)] + TagGroups(s, store, c, groups, tagDescription)
  }
}

=== FILE: paths_properties.dfy ===
/** Properties of the paths renderer: the shape of one operation's
    sections, the contents of its tables, and the hand-written override
    chain and its quirks. */
module PathsProperties {
  import opened Wrappers
  import opened JavaStrings
  import opened FileStore
  import opened Markup
  import opened SwaggerModel
  import opened OperationFolder
  import opened PathsDocument

  // ---------------------------------------------------------------------
  // Which subsections an operation has, stated independently of the
  // rendering functions.
  // ---------------------------------------------------------------------

  /** An example file of the operation was found. */
  predicate ExampleFound(s: Settings, store: Store, op: Operation, fileName: string) {
    && s.examplesEnabled
    && !IsBlankOrNull(op.summary)
    && Example(s, store, FolderKey(op.summary.value), fileName).Some?
  }

  /** A one-title list when the flag holds, else the empty list. */
  function TitleIf(flag: bool, title: string): seq<string> {
    if flag then [title] else []
  }

  /** The text of an operation's title heading. */
  function TitleText(methodAndPath: string, op: Operation): string {
    if IsBlankOrNull(op.summary) then methodAndPath else op.summary.value
  }

  // ---------------------------------------------------------------------
  // The subsections after the title.
  // ---------------------------------------------------------------------

  /** Sections at one level, no listing, no empty list or table. */
  predicate WellFormed(es: seq<Event>, level: nat) {
    Sections(es, level) && NoListing(es) && NoEmptyContent(es)
  }

  lemma WellFormedConcat(a: seq<Event>, b: seq<Event>, level: nat)
    requires WellFormed(a, level) && WellFormed(b, level)
    ensures WellFormed(a + b, level)
  {
    SectionsConcat(a, b, level);
    NoListingConcat(a, b);
    NoEmptyContentConcat(a, b);
  }

  lemma TwoEventSection(h: Event, content: Event, level: nat)
    requires h.Heading? && h.level == level && !content.Heading? && !content.Listing?
    requires content.List? ==> |content.items| > 0
    requires content.Table? ==> |content.rows| >= 2
    ensures WellFormed([h, content], level)
  {
    assert [h, content][2..] == [];
  }

  lemma ExamplesWellFormed(s: Settings, store: Store, op: Operation)
    ensures WellFormed(ExamplesSection(s, store, op), SectionLevel(s.groupBy))
  {
    var L := SectionLevel(s.groupBy);
    if s.examplesEnabled && !IsBlankOrNull(op.summary) {
      var folder := FolderKey(op.summary.value);
      var a := ExampleBlock(s, ExampleCurlTitle, Example(s, store, folder, CurlExampleFile));
      var b := ExampleBlock(s, ExampleRequestTitle, Example(s, store, folder, RequestExampleFile));
      var d := ExampleBlock(s, ExampleResponseTitle, Example(s, store, folder, ResponseExampleFile));
      if a != [] { TwoEventSection(a[0], a[1], L); }
      if b != [] { TwoEventSection(b[0], b[1], L); }
      if d != [] { TwoEventSection(d[0], d[1], L); }
      WellFormedConcat(b, d, L);
      WellFormedConcat(a, b + d, L);
    }
  }

  lemma SubsectionsWellFormed(s: Settings, store: Store, c: Collaborators, op: Operation)
    requires SummaryReadable(s, op)
    ensures WellFormed(Subsections(s, store, c, op), SectionLevel(s.groupBy))
  {
    var L := SectionLevel(s.groupBy);
    PairWellFormed(DescriptionSection(s, store, op), L);
    PairWellFormed(ParametersSection(s, store, c, op), L);
    PairWellFormed(ResponsesSection(s, c, op), L);
    PairWellFormed(ConsumesSection(s, op), L);
    PairWellFormed(ProducesSection(s, op), L);
    PairWellFormed(TagsSection(s, op), L);
    ExamplesWellFormed(s, store, op);
    WellFormedSeven(DescriptionSection(s, store, op), ParametersSection(s, store, c, op), ResponsesSection(s, c, op),
      ConsumesSection(s, op), ProducesSection(s, op), TagsSection(s, op), ExamplesSection(s, store, op), L);
  }

  /** Nothing, or one heading at the level with one non-empty content event. */
  lemma PairWellFormed(es: seq<Event>, L: nat)
    requires es == [] || (|es| == 2 && es[0].Heading? && es[0].level == L && !es[1].Heading? && !es[1].Listing?
                          && (es[1].List? ==> |es[1].items| > 0) && (es[1].Table? ==> |es[1].rows| >= 2))
    ensures WellFormed(es, L)
  {
    if es != [] { TwoEventSection(es[0], es[1], L); assert es == [es[0], es[1]]; }
  }

  lemma WellFormedSeven(d: seq<Event>, p: seq<Event>, r: seq<Event>, co: seq<Event>, pr: seq<Event>, t: seq<Event>, e: seq<Event>, L: nat)
    requires WellFormed(d, L) && WellFormed(p, L) && WellFormed(r, L) && WellFormed(co, L)
    requires WellFormed(pr, L) && WellFormed(t, L) && WellFormed(e, L)
    ensures WellFormed(d + (p + (r + (co + (pr + (t + e))))), L)
  {
    WellFormedConcat(t, e, L);
    WellFormedConcat(pr, t + e, L);
    WellFormedConcat(co, pr + (t + e), L);
    WellFormedConcat(r, co + (pr + (t + e)), L);
    WellFormedConcat(p, r + (co + (pr + (t + e))), L);
    WellFormedConcat(d, p + (r + (co + (pr + (t + e)))), L);
  }

  /** The shape of one operation: a title heading, a listing right after it
      when the summary is not blank and nowhere else, then subsections one
      level deeper than the title, each heading followed by its content,
      and no empty list or table anywhere. */
  lemma OperationShape(s: Settings, store: Store, c: Collaborators, mp: string, op: Operation)
    requires SummaryReadable(s, op)
    ensures var r := RenderOperation(s, store, c, mp, Some(op));
      && r[0] == Heading(TitleLevel(s.groupBy), TitleText(mp, op))
      && (!IsBlankOrNull(op.summary) ==> r[1] == Listing(mp))
      && (forall i :: 0 <= i < |r| && r[i].Listing? ==> i == 1 && !IsBlankOrNull(op.summary))
      && (forall i :: 1 <= i < |r| && r[i].Heading? ==>
            r[i].level == SectionLevel(s.groupBy) && i + 1 < |r| && !r[i + 1].Heading?)
      && NoEmptyContent(r)
  {
    var t := PathTitle(s, mp, op);
    SubsectionsWellFormed(s, store, c, op);
    TitleThenSections(t, Subsections(s, store, c, op), SectionLevel(s.groupBy));
  }

  /** A title of one heading, or of a heading and a listing, followed by
      well-formed sections. */
  lemma TitleThenSections(t: seq<Event>, b: seq<Event>, L: nat)
    requires 1 <= |t| <= 2 && t[0].Heading? && (|t| == 2 ==> t[1].Listing?)
    requires WellFormed(b, L)
    ensures var r := t + b;
      && r[0] == t[0]
      && (|t| == 2 ==> r[1] == t[1])
      && (forall i :: 0 <= i < |r| && r[i].Listing? ==> i == 1 && |t| == 2)
      && (forall i :: 1 <= i < |r| && r[i].Heading? ==> r[i].level == L && i + 1 < |r| && !r[i + 1].Heading?)
      && NoEmptyContent(r)
  {
    var r := t + b;
    SectionsShape(b, L);
    forall i | |t| <= i < |r| ensures r[i] == b[i - |t|] { }
    assert NoEmptyContent(t);
    NoEmptyContentConcat(t, b);
  }

  /** The subsection headings of an operation, after its title, are exactly
      the titles of the subsections that have something to show, in the
      fixed order Description, Parameters, Responses, Consumes, Produces,
      Tags, and the curl, request and response examples. */
  lemma OperationSectionOrder(s: Settings, store: Store, c: Collaborators, mp: string, op: Operation)
    requires SummaryReadable(s, op)
    ensures HeadingTexts(RenderOperation(s, store, c, mp, Some(op)))
         == [TitleText(mp, op)] + ExpectedHeadings(s, store, op)
  {
    var ti := PathTitle(s, mp, op);
    HeadingTextsConcat(ti, Subsections(s, store, c, op));
    assert HeadingTexts(ti) == [TitleText(mp, op)] by {
      if |ti| == 2 { assert ti[1..][1..] == []; } else { assert ti[1..] == []; }
    }
    SubsectionHeadings(s, store, c, op);
  }

  lemma SubsectionHeadings(s: Settings, store: Store, c: Collaborators, op: Operation)
    requires SummaryReadable(s, op)
    ensures HeadingTexts(Subsections(s, store, c, op)) == ExpectedHeadings(s, store, op)
  {
    var d := DescriptionSection(s, store, op);
    var p := ParametersSection(s, store, c, op);
    var r := ResponsesSection(s, c, op);
    var co := ConsumesSection(s, op);
    var pr := ProducesSection(s, op);
    var t := TagsSection(s, op);
    var e := ExamplesSection(s, store, op);
    HeadingsSeven(d, p, r, co, pr, t, e);
    DescriptionHeadings(s, store, op);
    ParametersHeadings(s, store, c, op);
    ResponsesHeadings(s, c, op);
    ListHeadings(SectionLevel(s.groupBy), ConsumesTitle, op.consumes);
    ListHeadings(SectionLevel(s.groupBy), ProducesTitle, op.produces);
    TagsHeadings(s, op);
    ExamplesHeadings(s, store, op);
  }

  lemma HeadingsSeven(d: seq<Event>, p: seq<Event>, r: seq<Event>, co: seq<Event>, pr: seq<Event>, t: seq<Event>, e: seq<Event>)
    ensures HeadingTexts(d + (p + (r + (co + (pr + (t + e))))))
         == HeadingTexts(d) + (HeadingTexts(p) + (HeadingTexts(r) + (HeadingTexts(co)
          + (HeadingTexts(pr) + (HeadingTexts(t) + HeadingTexts(e))))))
  {
    HeadingTextsConcat(t, e);
    HeadingTextsConcat(pr, t + e);
    HeadingTextsConcat(co, pr + (t + e));
    HeadingTextsConcat(r, co + (pr + (t + e)));
    HeadingTextsConcat(p, r + (co + (pr + (t + e))));
    HeadingTextsConcat(d, p + (r + (co + (pr + (t + e)))));
  }

  /** The subsection titles an operation should have: each one exactly when
      its section has something to show, in the fixed order Description,
      Parameters, Responses, Consumes, Produces, Tags, and the curl, request
      and response examples. */
  function ExpectedHeadings(s: Settings, store: Store, op: Operation): seq<string> {
    TitleIf(!IsBlankOrNull(OperationDescription(s, store, op)), "Description")
    + (TitleIf(|op.parameters| > 0, "Parameters")
    + (TitleIf(|op.responses| > 0, "Responses")
    + (TitleIf(|op.consumes| > 0, "Consumes")
    + (TitleIf(|op.produces| > 0, "Produces")
    + (TitleIf(s.groupBy == AsIs && |op.tags| > 0, "Tags")
    + (TitleIf(ExampleFound(s, store, op, "curl-request"), "Example CURL request")
    + (TitleIf(ExampleFound(s, store, op, "http-request"), "Example HTTP request")
    + TitleIf(ExampleFound(s, store, op, "http-response"), "Example HTTP response"))))))))
  }

  lemma TagsHeadings(s: Settings, op: Operation)
    ensures HeadingTexts(TagsSection(s, op)) == TitleIf(s.groupBy == AsIs && |op.tags| > 0, "Tags")
  {
    if s.groupBy == AsIs { ListHeadings(3, TagsTitle, op.tags); }
  }

  lemma DescriptionHeadings(s: Settings, store: Store, op: Operation)
    ensures HeadingTexts(DescriptionSection(s, store, op)) == TitleIf(!IsBlankOrNull(OperationDescription(s, store, op)), "Description")
  {
    var d := DescriptionSection(s, store, op);
    if d != [] { PairHeadings(d[0], d[1]); }
  }

  lemma ParametersHeadings(s: Settings, store: Store, c: Collaborators, op: Operation)
    requires SummaryReadable(s, op)
    ensures HeadingTexts(ParametersSection(s, store, c, op)) == TitleIf(|op.parameters| > 0, "Parameters")
  {
    var d := ParametersSection(s, store, c, op);
    if d != [] { PairHeadings(d[0], d[1]); }
  }

  lemma ResponsesHeadings(s: Settings, c: Collaborators, op: Operation)
    ensures HeadingTexts(ResponsesSection(s, c, op)) == TitleIf(|op.responses| > 0, "Responses")
  {
    var d := ResponsesSection(s, c, op);
    if d != [] { PairHeadings(d[0], d[1]); }
  }

  lemma ListHeadings(level: nat, title: string, items: seq<string>)
    ensures HeadingTexts(ListSection(level, title, items)) == TitleIf(|items| > 0, title)
  {
    var d := ListSection(level, title, items);
    if d != [] { PairHeadings(d[0], d[1]); }
  }

  lemma PairHeadings(h: Event, content: Event)
    requires h.Heading? && !content.Heading?
    ensures HeadingTexts([h, content]) == [h.text]
  {
    assert [h, content][1..][1..] == [];
  }

  lemma ExamplesHeadings(s: Settings, store: Store, op: Operation)
    ensures HeadingTexts(ExamplesSection(s, store, op))
         == TitleIf(ExampleFound(s, store, op, "curl-request"), "Example CURL request")
          + (TitleIf(ExampleFound(s, store, op, "http-request"), "Example HTTP request")
          + TitleIf(ExampleFound(s, store, op, "http-response"), "Example HTTP response"))
  {
    if s.examplesEnabled && !IsBlankOrNull(op.summary) {
      var folder := FolderKey(op.summary.value);
      var a := ExampleBlock(s, ExampleCurlTitle, Example(s, store, folder, CurlExampleFile));
      var b := ExampleBlock(s, ExampleRequestTitle, Example(s, store, folder, RequestExampleFile));
      var d := ExampleBlock(s, ExampleResponseTitle, Example(s, store, folder, ResponseExampleFile));
      BlockHeadings(s, ExampleCurlTitle, Example(s, store, folder, CurlExampleFile));
      BlockHeadings(s, ExampleRequestTitle, Example(s, store, folder, RequestExampleFile));
      BlockHeadings(s, ExampleResponseTitle, Example(s, store, folder, ResponseExampleFile));
      HeadingTextsConcat(b, d);
      HeadingTextsConcat(a, b + d);
    }
  }

  lemma BlockHeadings(s: Settings, title: string, example: Option<string>)
    ensures HeadingTexts(ExampleBlock(s, title, example)) == TitleIf(example.Some?, title)
  {
    var d := ExampleBlock(s, title, example);
    if d != [] { PairHeadings(d[0], d[1]); }
  }

  // ---------------------------------------------------------------------
  // Table contents.
  // ---------------------------------------------------------------------

  /** The parameters table: the six-column header, then one row per
      parameter in list order, whose type cell is the capitalised location
      followed by "Parameter" and whose required cell is "true" or "false". */
  lemma ParametersTable(s: Settings, store: Store, c: Collaborators, op: Operation)
    requires SummaryReadable(s, op) && |op.parameters| > 0
    ensures var r := ParametersSection(s, store, c, op);
      && r[1].Table?
      && |r[1].rows| == |op.parameters| + 1
      && r[1].rows[0] == ["Type", "Name", "Description", "Required", "Schema", "Default"]
      && forall i :: 0 <= i < |op.parameters| ==>
           var p := op.parameters[i];
           r[1].rows[i + 1] == [ Capitalize(p.location + "Parameter"),
                                 p.name,
                                 ParameterDescription(s, store, op, p),
                                 if p.required then "true" else "false",
                                 c.parameterType(p, s.language),
                                 c.defaultValue(p) ]
  {
    var rows := ParameterRows(s, store, c, op, op.parameters);
    assert ParametersSection(s, store, c, op)[1].rows == [ParameterHeader] + rows;
    forall i | 0 <= i < |op.parameters|
      ensures ([ParameterHeader] + rows)[i + 1] == ParameterRow(s, store, c, op, op.parameters[i])
    {
    }
  }

  /** The responses table: the three-column header, then one row per
      response in iteration order; the schema cell is "No Content" for a
      response without schema and the formatted schema otherwise. */
  lemma ResponsesTable(s: Settings, c: Collaborators, op: Operation)
    requires |op.responses| > 0
    ensures var r := ResponsesSection(s, c, op);
      && r[1].Table?
      && |r[1].rows| == |op.responses| + 1
      && r[1].rows[0] == ["HTTP Code", "Description", "Schema"]
      && forall i :: 0 <= i < |op.responses| ==>
           var (code, response) := op.responses[i];
           && |r[1].rows[i + 1]| == 3
           && r[1].rows[i + 1][0] == code
           && r[1].rows[i + 1][1] == response.description
           && (response.schema.None? ==> r[1].rows[i + 1][2] == "No Content")
           && (response.schema.Some? ==> r[1].rows[i + 1][2] == c.propertyType(response.schema.value, s.language))
  {
    var rows := ResponseRows(s, c, op.responses);
    assert ResponsesSection(s, c, op)[1].rows == [ResponseHeader] + rows;
    forall i | 0 <= i < |op.responses|
      ensures ([ResponseHeader] + rows)[i + 1] == ResponseRow(s, c, op.responses[i].0, op.responses[i].1)
    {
    }
  }

  // ---------------------------------------------------------------------
  // Hand-written overrides and the summary quirks.
  // ---------------------------------------------------------------------

  /** With a blank summary no description or example lookup happens: what
      is rendered for them does not depend on the files at all. */
  lemma BlankSummaryIgnoresFiles(s: Settings, store1: Store, store2: Store, op: Operation)
    requires IsBlankOrNull(op.summary)
    ensures DescriptionSection(s, store1, op) == DescriptionSection(s, store2, op) == PathDescription(s, op.description)
    ensures ExamplesSection(s, store1, op) == ExamplesSection(s, store2, op) == []
  {
  }

  /** A hand-written description file that holds only whitespace is still
      found: its empty trimmed text replaces the Swagger description, and no
      Description subsection is rendered at all. */
  lemma BlankHandWrittenDescriptionHidesSource(s: Settings, store: Store, op: Operation)
    requires s.descriptionsEnabled && !IsBlankOrNull(op.summary)
    requires HandWrittenPathDescription(s, store, FolderKey(op.summary.value), DescriptionFile).Some?
    requires IsBlank(HandWrittenPathDescription(s, store, FolderKey(op.summary.value), DescriptionFile).value)
    ensures DescriptionSection(s, store, op) == []
  {
  }

  /** A whitespace-only summary: the operation's description lookup is
      skipped because the summary is blank, but the parameter lookups run
      under the folder "__" because the derived folder is not blank, and no
      example is looked up. */
  lemma WhitespaceSummaryQuirk(s: Settings, store: Store, op: Operation, p: Parameter)
    requires s.descriptionsEnabled && op.summary == Some("  ") && !IsBlank(p.name)
    ensures OperationDescription(s, store, op) == op.description
    ensures ParameterDescription(s, store, op, p)
         == HandWrittenPathDescription(s, store, "__/" + p.name, DescriptionFile).GetOr(DefaultString(p.description))
    ensures ExamplesSection(s, store, op) == []
  {
    BlanknessDisagrees();
    assert "__" + "/" + p.name == "__/" + p.name;
  }

  /** A summary of ".": the operation's description is looked up with an
      empty folder, directly under the descriptions folder, while every
      parameter lookup is skipped because the derived folder is blank. */
  lemma DotSummaryQuirk(s: Settings, store: Store, op: Operation, p: Parameter)
    requires s.descriptionsEnabled && op.summary == Some(".")
    ensures var found := HandWrittenPathDescription(s, store, "", DescriptionFile);
      OperationDescription(s, store, op) == if found.Some? then found else op.description
    ensures ParameterDescription(s, store, op, p) == DefaultString(p.description)
  {
    BlanknessDisagrees();
  }

  /** The empty folder adds no path segment: the "." lookups read the
      description files directly under the descriptions folder. */
  lemma EmptyFolderPath(root: string, fileName: string, extension: string)
    ensures CandidatePath(root, "", fileName, extension) == Segments(root) + Segments(fileName + extension)
  {
    CandidatePathSegments(root, "", fileName, extension);
    assert Segments("") == [];
  }

  /** A parameter lookup reads operationFolder/parameterName/description.ext
      under the descriptions folder. */
  lemma ParameterLookupPath(root: string, folder: string, name: string, fileName: string, extension: string)
    ensures CandidatePath(root, folder + "/" + name, fileName, extension)
         == Segments(root) + Segments(folder) + Segments(name) + Segments(fileName + extension)
  {
    CandidatePathSegments(root, folder + "/" + name, fileName, extension);
    SegmentsJoin(folder, name);
    Reassociate(Segments(root) + Segments(folder + "/" + name), Segments(root), Segments(folder + "/" + name),
                Segments(folder), Segments(name), Segments(root) + Segments(folder));
  }
}

=== FILE: swagger_model.dfy ===
/** The parts of the parsed Swagger model and of the generator's
    configuration that the paths renderer reads. Java nulls that the
    renderer tests for are Option values; null lists are empty sequences. */
module SwaggerModel {
  import opened Wrappers

  /** The output dialects. */
  datatype MarkupLanguage = Asciidoc | Markdown

  /** How the paths are grouped into sections. */
  datatype GroupBy = AsIs | ByTag

  /** The HTTP methods an operation can be attached to. */
  datatype HttpMethod = GET | PUT | POST | DELETE | PATCH | HEAD | OPTIONS

  /** The enum constant's name, as HttpMethod.toString prints it. */
  function MethodName(m: HttpMethod): string
  {
    match m
    case GET => "GET"
    case PUT => "PUT"
    case POST => "POST"
    case DELETE => "DELETE"
    case PATCH => "PATCH"
    case HEAD => "HEAD"
    case OPTIONS => "OPTIONS"
  }

  /** A schema property. Its structure is only inspected by PropertyUtils.getType,
      which is not part of this model, so it is identified by an opaque key. */
  datatype Property = Property(key: nat)

  /** The kinds of schema model ModelUtils.getType distinguishes. */
  datatype Model =
    | ModelImpl(declaredType: string)
    | RefModel(simpleRef: string)
    | ArrayModel(items: Property, arrayType: string)
    | OtherModel

  /** An operation parameter; `location` is the Swagger `in` field. */
  datatype Parameter = Parameter(
    name: string,
    location: string,
    required: bool,
    description: Option<string>)

  /** A response; the schema may be absent. */
  datatype Response = Response(description: string, schema: Option<Property>)

  /** An operation. The responses are the entries of the response map in its
      iteration order. */
  datatype Operation = Operation(
    summary: Option<string>,
    description: Option<string>,
    parameters: seq<Parameter>,
    responses: seq<(string, Response)>,
    consumes: seq<string>,
    produces: seq<string>,
    tags: seq<string>)

  /** A path item: its operation map in iteration order. */
  datatype PathItem = PathItem(operations: seq<(HttpMethod, Option<Operation>)>)

  /** The generator configuration read by the paths document. The file name
      extensions are those the markup language declares for itself. */
  datatype Config = Config(
    groupBy: GroupBy,
    language: MarkupLanguage,
    extensions: seq<string>,
    examplesFolder: Option<string>,
    descriptionsFolder: Option<string>)

  /** The collaborators the renderer calls but whose code is not part of
      this model: ParameterUtils.getType, ParameterUtils.getDefaultValue and
      PropertyUtils.getType. */
  datatype Collaborators = Collaborators(
    parameterType: (Parameter, MarkupLanguage) -> string,
    defaultValue: Parameter -> string,
    propertyType: (Property, MarkupLanguage) -> string)
}

=== FILE: walk_properties.dfy ===
/** Properties of the walk over the path map: what is skipped, how the
    operations of one document line up with their titles, and which
    headings each level of the document holds under either grouping. */
module PathsWalk {
  import opened Wrappers
  import opened SwaggerModel
  import opened FileStore
  import opened JavaStrings
  import opened Markup
  import opened PathsDocument
  import opened PathsProperties

  // ---------------------------------------------------------------------
  // Reference definitions of the titles a walk produces.
  // ---------------------------------------------------------------------

  /** The titles of the non-null operations of one path, in map order. */
  function OperationTitles(url: string, ops: seq<(HttpMethod, Option<Operation>)>): seq<string> {
    if |ops| == 0 then []
    else
      (if ops[0].1.Some? then [TitleText(MethodName(ops[0].0) + " " + url, ops[0].1.value)] else [])
      + OperationTitles(url, ops[1..])
  }

  /** The titles of all non-null operations of the non-null path items. */
  function EntryTitles(entries: seq<(string, Option<PathItem>)>): seq<string> {
    if |entries| == 0 then []
    else
      (if entries[0].1.Some? then OperationTitles(entries[0].0, entries[0].1.value.operations) else [])
      + EntryTitles(entries[1..])
  }

  /** The capitalised tag names of the groups, in group order. */
  function TagTitles(groups: seq<(string, seq<(string, Option<PathItem>)>)>): (r: seq<string>)
    ensures |r| == |groups|
  {
    if |groups| == 0 then [] else [Capitalize(groups[0].0)] + TagTitles(groups[1..])
  }

  /** The operation titles of every group, one group after the other. */
  function GroupTitles(groups: seq<(string, seq<(string, Option<PathItem>)>)>): seq<string> {
    if |groups| == 0 then [] else EntryTitles(groups[0].1) + GroupTitles(groups[1..])
  }

  /** The outline of a tag-grouped document below its title: each group's
      capitalised tag name followed by the titles of its operations. */
  function TagOutline(groups: seq<(string, seq<(string, Option<PathItem>)>)>): seq<string> {
    if |groups| == 0 then []
    else [Capitalize(groups[0].0)] + EntryTitles(groups[0].1) + TagOutline(groups[1..])
  }

  // ---------------------------------------------------------------------
  // One operation.
  // ---------------------------------------------------------------------

  /** Events that open with a heading and hold every other heading one
      level deeper, stated over plain values: at or above the opening
      level only the opening heading shows. */
  lemma OpeningHeadingOnly(r: seq<Event>, opening: nat, title: string, level: nat)
    requires |r| > 0 && r[0] == Heading(opening, title) && level <= opening
    requires forall i :: 1 <= i < |r| && r[i].Heading? ==> r[i].level == opening + 1
    ensures HeadingsAt(r, level) == if level == opening then [title] else []
  {
    assert r == r[..1] + r[1..];
    forall i | 0 <= i < |r[1..]| && r[1..][i].Heading? ensures r[1..][i].level != level {
      assert r[1..][i] == r[i + 1];
    }
    HeadingsAtNone(r[1..], level);
    HeadingsAtConcat(r[..1], r[1..], level);
  }

  /** An operation holds exactly one heading at its title level, its title,
      and none above it. */
  lemma OperationLevels(s: Settings, store: Store, c: Collaborators, mp: string, op: Operation, level: nat)
    requires SummaryReadable(s, op) && level <= TitleLevel(s.groupBy)
    ensures HeadingsAt(RenderOperation(s, store, c, mp, Some(op)), level)
         == if level == TitleLevel(s.groupBy) then [TitleText(mp, op)] else []
  {
    OperationShape(s, store, c, mp, op);
    OpeningHeadingOnly(RenderOperation(s, store, c, mp, Some(op)), TitleLevel(s.groupBy), TitleText(mp, op), level);
  }

  // ---------------------------------------------------------------------
  // The operations of one path.
  // ---------------------------------------------------------------------

  lemma ItemReadableParts(s: Settings, a: seq<(HttpMethod, Option<Operation>)>, b: seq<(HttpMethod, Option<Operation>)>)
    requires ItemReadable(s, PathItem(a + b))
    ensures ItemReadable(s, PathItem(a)) && ItemReadable(s, PathItem(b))
  {
    forall i | 0 <= i < |a| ensures (a + b)[i] == a[i] { }
    forall i | 0 <= i < |b| ensures (a + b)[|a| + i] == b[i] { }
  }

  /** One step of the walk over the operations of a path. */
  lemma CreatePathSectionsStep(s: Settings, store: Store, c: Collaborators, url: string,
                               ops: seq<(HttpMethod, Option<Operation>)>)
    requires ItemReadable(s, PathItem(ops)) && |ops| > 0
    ensures ItemReadable(s, PathItem(ops[1..]))
    ensures CreatePathSections(s, store, c, url, ops)
         == RenderOperation(s, store, c, MethodName(ops[0].0) + " " + url, ops[0].1) + CreatePathSections(s, store, c, url, ops[1..])
  {
    assert ops == ops[..1] + ops[1..];
    ItemReadableParts(s, ops[..1], ops[1..]);
  }

  /** Rendering the operations of a path distributes over splitting them. */
  lemma {:induction false} CreatePathSectionsConcat(s: Settings, store: Store, c: Collaborators, url: string,
                                                    a: seq<(HttpMethod, Option<Operation>)>, b: seq<(HttpMethod, Option<Operation>)>)
    requires ItemReadable(s, PathItem(a + b))
    ensures ItemReadable(s, PathItem(a)) && ItemReadable(s, PathItem(b))
    ensures CreatePathSections(s, store, c, url, a + b)
         == CreatePathSections(s, store, c, url, a) + CreatePathSections(s, store, c, url, b)
    decreases |a|
  {
    ItemReadableParts(s, a, b);
    if |a| == 0 {
      assert a + b == b;
    } else {
      assert (a + b)[1..] == a[1..] + b;
      assert (a + b)[0] == a[0];
      CreatePathSectionsStep(s, store, c, url, a + b);
      CreatePathSectionsStep(s, store, c, url, a);
      CreatePathSectionsConcat(s, store, c, url, a[1..], b);
      Reassociate(CreatePathSections(s, store, c, url, a + b),
                  RenderOperation(s, store, c, MethodName(a[0].0) + " " + url, a[0].1),
                  CreatePathSections(s, store, c, url, a[1..] + b),
                  CreatePathSections(s, store, c, url, a[1..]),
                  CreatePathSections(s, store, c, url, b),
                  RenderOperation(s, store, c, MethodName(a[0].0) + " " + url, a[0].1) + CreatePathSections(s, store, c, url, a[1..]));
    }
  }

  lemma ItemReadableDrop(s: Settings, m: HttpMethod, a: seq<(HttpMethod, Option<Operation>)>, b: seq<(HttpMethod, Option<Operation>)>)
    requires ItemReadable(s, PathItem(a + [(m, None)] + b))
    ensures ItemReadable(s, PathItem(a + b))
  {
    forall i | 0 <= i < |a + b| && (a + b)[i].1.Some? ensures SummaryReadable(s, (a + b)[i].1.value) {
      if i < |a| {
        assert (a + b)[i] == (a + [(m, None)] + b)[i];
      } else {
        assert (a + b)[i] == (a + [(m, None)] + b)[i + 1];
      }
    }
  }

  /** An operation slot that is null renders nothing: the other operations
      come out exactly as if it were absent. */
  lemma NullOperationSkipped(s: Settings, store: Store, c: Collaborators, url: string, m: HttpMethod,
                             a: seq<(HttpMethod, Option<Operation>)>, b: seq<(HttpMethod, Option<Operation>)>)
    requires ItemReadable(s, PathItem(a + [(m, None)] + b))
    ensures ItemReadable(s, PathItem(a + b))
    ensures CreatePathSections(s, store, c, url, a + [(m, None)] + b) == CreatePathSections(s, store, c, url, a + b)
  {
    var skipped: seq<(HttpMethod, Option<Operation>)> := [(m, None)];
    ItemReadableDrop(s, m, a, b);
    CreatePathSectionsConcat(s, store, c, url, a + skipped, b);
    CreatePathSectionsConcat(s, store, c, url, a, skipped);
    CreatePathSectionsStep(s, store, c, url, skipped);
    assert skipped[1..] == [];
    CreatePathSectionsConcat(s, store, c, url, a, b);
    DropEmpty(CreatePathSections(s, store, c, url, a + skipped + b),
              CreatePathSections(s, store, c, url, a),
              CreatePathSections(s, store, c, url, skipped),
              [],
              CreatePathSections(s, store, c, url, b));
  }

  /** The operations of a path carry their "METHOD url" titles (or their
      summaries) at the title level, in map order, and no heading above. */
  lemma {:induction false} CreatePathSectionsLevels(s: Settings, store: Store, c: Collaborators, url: string,
                                                    ops: seq<(HttpMethod, Option<Operation>)>, level: nat)
    requires ItemReadable(s, PathItem(ops)) && level <= TitleLevel(s.groupBy)
    ensures HeadingsAt(CreatePathSections(s, store, c, url, ops), level)
         == if level == TitleLevel(s.groupBy) then OperationTitles(url, ops) else []
    decreases |ops|
  {
    if |ops| > 0 {
      var mp := MethodName(ops[0].0) + " " + url;
      assert ItemReadable(s, PathItem(ops[1..])) by {
        forall i | 0 <= i < |ops[1..]| && ops[1..][i].1.Some? ensures SummaryReadable(s, ops[1..][i].1.value) {
          assert ops[1..][i] == ops[i + 1];
        }
      }
      HeadingsAtConcat(RenderOperation(s, store, c, mp, ops[0].1), CreatePathSections(s, store, c, url, ops[1..]), level);
      if ops[0].1.Some? {
        OperationLevels(s, store, c, mp, ops[0].1.value, level);
      }
      CreatePathSectionsLevels(s, store, c, url, ops[1..], level);
    }
  }

  // ---------------------------------------------------------------------
  // The path entries.
  // ---------------------------------------------------------------------

  lemma EntriesReadableParts(s: Settings, a: seq<(string, Option<PathItem>)>, b: seq<(string, Option<PathItem>)>)
    requires EntriesReadable(s, a + b)
    ensures EntriesReadable(s, a) && EntriesReadable(s, b)
  {
    forall i | 0 <= i < |a| ensures (a + b)[i] == a[i] { }
    forall i | 0 <= i < |b| ensures (a + b)[|a| + i] == b[i] { }
  }

  /** The events of one path entry: nothing for a null path item. */
  function EntryEvents(s: Settings, store: Store, c: Collaborators, entry: (string, Option<PathItem>)): seq<Event>
    requires entry.1.Some? ==> ItemReadable(s, entry.1.value)
  {
    if entry.1.Some? then CreatePathSections(s, store, c, entry.0, entry.1.value.operations) else []
  }

  /** One step of the walk over the path entries. */
  lemma PathEntriesStep(s: Settings, store: Store, c: Collaborators, entries: seq<(string, Option<PathItem>)>)
    requires EntriesReadable(s, entries) && |entries| > 0
    ensures EntriesReadable(s, entries[1..])
    ensures PathEntries(s, store, c, entries) == EntryEvents(s, store, c, entries[0]) + PathEntries(s, store, c, entries[1..])
  {
    assert entries == entries[..1] + entries[1..];
    EntriesReadableParts(s, entries[..1], entries[1..]);
  }

  /** Rendering path entries distributes over splitting them. */
  lemma {:induction false} PathEntriesConcat(s: Settings, store: Store, c: Collaborators,
                                             a: seq<(string, Option<PathItem>)>, b: seq<(string, Option<PathItem>)>)
    requires EntriesReadable(s, a + b)
    ensures EntriesReadable(s, a) && EntriesReadable(s, b)
    ensures PathEntries(s, store, c, a + b) == PathEntries(s, store, c, a) + PathEntries(s, store, c, b)
    decreases |a|
  {
    EntriesReadableParts(s, a, b);
    if |a| == 0 {
      assert a + b == b;
    } else {
      assert (a + b)[1..] == a[1..] + b;
      assert (a + b)[0] == a[0];
      PathEntriesStep(s, store, c, a + b);
      PathEntriesStep(s, store, c, a);
      PathEntriesConcat(s, store, c, a[1..], b);
      Reassociate(PathEntries(s, store, c, a + b),
                  EntryEvents(s, store, c, a[0]),
                  PathEntries(s, store, c, a[1..] + b),
                  PathEntries(s, store, c, a[1..]),
                  PathEntries(s, store, c, b),
                  EntryEvents(s, store, c, a[0]) + PathEntries(s, store, c, a[1..]));
    }
  }

  lemma EntriesReadableDrop(s: Settings, url: string, a: seq<(string, Option<PathItem>)>, b: seq<(string, Option<PathItem>)>)
    requires EntriesReadable(s, a + [(url, None)] + b)
    ensures EntriesReadable(s, a + b)
  {
    forall i | 0 <= i < |a + b| && (a + b)[i].1.Some? ensures ItemReadable(s, (a + b)[i].1.value) {
      if i < |a| {
        assert (a + b)[i] == (a + [(url, None)] + b)[i];
      } else {
        assert (a + b)[i] == (a + [(url, None)] + b)[i + 1];
      }
    }
  }

  /** A path whose item is null renders nothing: the other paths come out
      exactly as if it were absent. */
  lemma NullPathItemSkipped(s: Settings, store: Store, c: Collaborators, url: string,
                            a: seq<(string, Option<PathItem>)>, b: seq<(string, Option<PathItem>)>)
    requires EntriesReadable(s, a + [(url, None)] + b)
    ensures EntriesReadable(s, a + b)
    ensures PathEntries(s, store, c, a + [(url, None)] + b) == PathEntries(s, store, c, a + b)
  {
    var skipped: seq<(string, Option<PathItem>)> := [(url, None)];
    EntriesReadableDrop(s, url, a, b);
    PathEntriesConcat(s, store, c, a + skipped, b);
    PathEntriesConcat(s, store, c, a, skipped);
    assert skipped[1..] == [];
    assert PathEntries(s, store, c, skipped) == [];
    PathEntriesConcat(s, store, c, a, b);
    DropEmpty(PathEntries(s, store, c, a + skipped + b),
              PathEntries(s, store, c, a),
              PathEntries(s, store, c, skipped),
              [],
              PathEntries(s, store, c, b));
  }

  /** The entries carry the titles of all their operations at the title
      level, path by path in map order, and no heading above. */
  lemma {:induction false} PathEntriesLevels(s: Settings, store: Store, c: Collaborators,
                                             entries: seq<(string, Option<PathItem>)>, level: nat)
    requires EntriesReadable(s, entries) && level <= TitleLevel(s.groupBy)
    ensures HeadingsAt(PathEntries(s, store, c, entries), level)
         == if level == TitleLevel(s.groupBy) then EntryTitles(entries) else []
    decreases |entries|
  {
    if |entries| > 0 {
      assert EntriesReadable(s, entries[1..]) by {
        forall i | 0 <= i < |entries[1..]| && entries[1..][i].1.Some? ensures ItemReadable(s, entries[1..][i].1.value) {
          assert entries[1..][i] == entries[i + 1];
        }
      }
      var head := match entries[0].1
        case None => []
        case Some(item) => CreatePathSections(s, store, c, entries[0].0, item.operations);
      HeadingsAtConcat(head, PathEntries(s, store, c, entries[1..]), level);
      if entries[0].1.Some? {
        CreatePathSectionsLevels(s, store, c, entries[0].0, entries[0].1.value.operations, level);
      }
      PathEntriesLevels(s, store, c, entries[1..], level);
    }
  }

  // ---------------------------------------------------------------------
  // The tag groups.
  // ---------------------------------------------------------------------

  /** The headings at one level of four consecutive parts. */
  lemma HeadingsAtFour(h: seq<Event>, d: seq<Event>, p: seq<Event>, rest: seq<Event>, level: nat)
    ensures HeadingsAt(h + d + p + rest, level)
         == HeadingsAt(h, level) + HeadingsAt(d, level) + HeadingsAt(p, level) + HeadingsAt(rest, level)
  {
    HeadingsAtConcat(h + d + p, rest, level);
    HeadingsAtConcat(h + d, p, level);
    HeadingsAtConcat(h, d, level);
  }

  /** One step of the walk over the tag groups. */
  lemma TagGroupsStep(s: Settings, store: Store, c: Collaborators,
                      groups: seq<(string, seq<(string, Option<PathItem>)>)>, tagDescription: string -> Option<string>)
    requires GroupsReadable(s, groups) && |groups| > 0
    ensures GroupsReadable(s, groups[1..]) && EntriesReadable(s, groups[0].1)
    ensures TagGroups(s, store, c, groups, tagDescription)
         == [Heading(2, Capitalize(groups[0].0))]
          + TagDescription(tagDescription(groups[0].0))
          + PathEntries(s, store, c, groups[0].1)
          + TagGroups(s, store, c, groups[1..], tagDescription)
  {
    assert GroupsReadable(s, groups[1..]) by {
      forall i | 0 <= i < |groups[1..]| ensures EntriesReadable(s, groups[1..][i].1) {
        assert groups[1..][i] == groups[i + 1];
      }
    }
  }

  /** Under tag grouping, the level-2 headings are the capitalised tag
      names in group order, and the level-3 headings the operation titles
      of every group, one group after the other. */
  lemma {:induction false} TagGroupsLevels(s: Settings, store: Store, c: Collaborators,
                                           groups: seq<(string, seq<(string, Option<PathItem>)>)>,
                                           tagDescription: string -> Option<string>, level: nat)
    requires GroupsReadable(s, groups) && s.groupBy == ByTag && 1 <= level <= 3
    ensures HeadingsAt(TagGroups(s, store, c, groups, tagDescription), level)
         == if level == 1 then [] else if level == 2 then TagTitles(groups) else GroupTitles(groups)
    decreases |groups|
  {
    if |groups| > 0 {
      var h := [Heading(2, Capitalize(groups[0].0))];
      var d := TagDescription(tagDescription(groups[0].0));
      var p := PathEntries(s, store, c, groups[0].1);
      var rest := TagGroups(s, store, c, groups[1..], tagDescription);
      TagGroupsStep(s, store, c, groups, tagDescription);
      HeadingsAtFour(h, d, p, rest, level);
      assert HeadingsAt(h, level) == if level == 2 then [Capitalize(groups[0].0)] else [] by {
        assert h[1..] == [];
      }
      HeadingsAtNone(d, level);
      PathEntriesLevels(s, store, c, groups[0].1, level);
      TagGroupsLevels(s, store, c, groups[1..], tagDescription, level);
      DropEmpty(HeadingsAt(TagGroups(s, store, c, groups, tagDescription), level),
                HeadingsAt(h, level), HeadingsAt(d, level), HeadingsAt(p, level), HeadingsAt(rest, level));
    }
  }

  /** Under tag grouping, no heading of the entries lies above the title
      level, so down to it only the operation titles show. */
  lemma EntriesOutline(s: Settings, store: Store, c: Collaborators, entries: seq<(string, Option<PathItem>)>)
    requires EntriesReadable(s, entries) && s.groupBy == ByTag
    ensures HeadingsUpTo(PathEntries(s, store, c, entries), 3) == EntryTitles(entries)
  {
    var p := PathEntries(s, store, c, entries);
    PathEntriesLevels(s, store, c, entries, 0);
    PathEntriesLevels(s, store, c, entries, 1);
    PathEntriesLevels(s, store, c, entries, 2);
    PathEntriesLevels(s, store, c, entries, 3);
    HeadingsAtEmpty(p, 0);
    HeadingsAtEmpty(p, 1);
    HeadingsAtEmpty(p, 2);
    HeadingsUpToAt(p, 3);
  }

  /** The outline of four consecutive parts. */
  lemma HeadingsUpToFour(h: seq<Event>, d: seq<Event>, p: seq<Event>, rest: seq<Event>, depth: nat)
    ensures HeadingsUpTo(h + d + p + rest, depth)
         == HeadingsUpTo(h, depth) + HeadingsUpTo(d, depth) + HeadingsUpTo(p, depth) + HeadingsUpTo(rest, depth)
  {
    HeadingsUpToConcat(h + d + p, rest, depth);
    HeadingsUpToConcat(h + d, p, depth);
    HeadingsUpToConcat(h, d, depth);
  }

  /** Under tag grouping, each group's operations sit under its own tag:
      down to level 3 the groups read as their tag name followed by their
      operation titles, one group after the other. */
  lemma {:induction false} TagGroupsOutline(s: Settings, store: Store, c: Collaborators,
                                            groups: seq<(string, seq<(string, Option<PathItem>)>)>,
                                            tagDescription: string -> Option<string>)
    requires GroupsReadable(s, groups) && s.groupBy == ByTag
    ensures HeadingsUpTo(TagGroups(s, store, c, groups, tagDescription), 3) == TagOutline(groups)
    decreases |groups|
  {
    if |groups| > 0 {
      var h := [Heading(2, Capitalize(groups[0].0))];
      var d := TagDescription(tagDescription(groups[0].0));
      var p := PathEntries(s, store, c, groups[0].1);
      var rest := TagGroups(s, store, c, groups[1..], tagDescription);
      TagGroupsStep(s, store, c, groups, tagDescription);
      HeadingsUpToFour(h, d, p, rest, 3);
      assert HeadingsUpTo(h, 3) == [Capitalize(groups[0].0)] by {
        assert h[1..] == [];
      }
      assert HeadingsUpTo(d, 3) == [] by {
        HeadingsUpToAt(d, 3);
        HeadingsAtNone(d, 3);
      }
      EntriesOutline(s, store, c, groups[0].1);
      TagGroupsOutline(s, store, c, groups[1..], tagDescription);
      DropEmpty(HeadingsUpTo(TagGroups(s, store, c, groups, tagDescription), 3),
                HeadingsUpTo(h, 3), HeadingsUpTo(d, 3), HeadingsUpTo(p, 3), HeadingsUpTo(rest, 3));
    }
  }

  // ---------------------------------------------------------------------
  // The whole document.
  // ---------------------------------------------------------------------

  /** A document under a level-1 title, stated over plain values. */
  lemma TitledLevels(whole: seq<Event>, title: string, body: seq<Event>, level: nat)
    requires whole == [Heading(1, title)] + body
    ensures HeadingsAt(whole, level) == (if level == 1 then [title] else []) + HeadingsAt(body, level)
  {
    var h := [Heading(1, title)];
    assert h[1..] == [];
    HeadingsAtConcat(h, body, level);
  }

  /** The first step of the paths document. */
  lemma RenderPathsStep(s: Settings, store: Store, c: Collaborators, paths: seq<(string, Option<PathItem>)>,
                        groups: seq<(string, seq<(string, Option<PathItem>)>)>, tagDescription: string -> Option<string>)
    requires EntriesReadable(s, paths) && GroupsReadable(s, groups) && |paths| > 0
    ensures s.groupBy == AsIs ==>
      RenderPaths(s, store, c, paths, groups, tagDescription) == [Heading(1, PathsTitle)] + PathEntries(s, store, c, paths)
    ensures s.groupBy == ByTag ==>
      RenderPaths(s, store, c, paths, groups, tagDescription) == [Heading(1, ResourcesTitle)] + TagGroups(s, store, c, groups, tagDescription)
  {
  }

  /** As-is: one "Paths" heading at level 1, then every operation's title
      at level 2, path by path and operation by operation in map order. */
  lemma RenderPathsAsIs(s: Settings, store: Store, c: Collaborators, paths: seq<(string, Option<PathItem>)>,
                        groups: seq<(string, seq<(string, Option<PathItem>)>)>, tagDescription: string -> Option<string>)
    requires EntriesReadable(s, paths) && GroupsReadable(s, groups)
    requires s.groupBy == AsIs && |paths| > 0
    ensures HeadingsAt(RenderPaths(s, store, c, paths, groups, tagDescription), 1) == ["Paths"]
    ensures HeadingsAt(RenderPaths(s, store, c, paths, groups, tagDescription), 2) == EntryTitles(paths)
  {
    var r := RenderPaths(s, store, c, paths, groups, tagDescription);
    var p := PathEntries(s, store, c, paths);
    RenderPathsStep(s, store, c, paths, groups, tagDescription);
    TitledLevels(r, PathsTitle, p, 1);
    TitledLevels(r, PathsTitle, p, 2);
    PathEntriesLevels(s, store, c, paths, 1);
    PathEntriesLevels(s, store, c, paths, 2);
  }

  /** By tag: one "Resources" heading at level 1, the capitalised tags at
      level 2 in group order, and the operation titles at level 3. */
  lemma RenderPathsByTag(s: Settings, store: Store, c: Collaborators, paths: seq<(string, Option<PathItem>)>,
                         groups: seq<(string, seq<(string, Option<PathItem>)>)>, tagDescription: string -> Option<string>)
    requires EntriesReadable(s, paths) && GroupsReadable(s, groups)
    requires s.groupBy == ByTag && |paths| > 0
    ensures HeadingsAt(RenderPaths(s, store, c, paths, groups, tagDescription), 1) == ["Resources"]
    ensures HeadingsAt(RenderPaths(s, store, c, paths, groups, tagDescription), 2) == TagTitles(groups)
    ensures HeadingsAt(RenderPaths(s, store, c, paths, groups, tagDescription), 3) == GroupTitles(groups)
  {
    var r := RenderPaths(s, store, c, paths, groups, tagDescription);
    var g := TagGroups(s, store, c, groups, tagDescription);
    RenderPathsStep(s, store, c, paths, groups, tagDescription);
    TitledLevels(r, ResourcesTitle, g, 1);
    TitledLevels(r, ResourcesTitle, g, 2);
    TitledLevels(r, ResourcesTitle, g, 3);
    TagGroupsLevels(s, store, c, groups, tagDescription, 1);
    TagGroupsLevels(s, store, c, groups, tagDescription, 2);
    TagGroupsLevels(s, store, c, groups, tagDescription, 3);
  }

  /** By tag, the outline down to level 3: "Resources", then each tag name
      with the titles of its operations beneath it. */
  lemma RenderPathsOutline(s: Settings, store: Store, c: Collaborators, paths: seq<(string, Option<PathItem>)>,
                           groups: seq<(string, seq<(string, Option<PathItem>)>)>, tagDescription: string -> Option<string>)
    requires EntriesReadable(s, paths) && GroupsReadable(s, groups)
    requires s.groupBy == ByTag && |paths| > 0
    ensures HeadingsUpTo(RenderPaths(s, store, c, paths, groups, tagDescription), 3) == ["Resources"] + TagOutline(groups)
  {
    var h := [Heading(1, ResourcesTitle)];
    var g := TagGroups(s, store, c, groups, tagDescription);
    RenderPathsStep(s, store, c, paths, groups, tagDescription);
    assert h[1..] == [];
    HeadingsUpToConcat(h, g, 3);
    TagGroupsOutline(s, store, c, groups, tagDescription);
  }
}

=== FILE: wrappers.dfy ===
/** Optional values and results, standing in for Guava's Optional, Java's
    nullable references and thrown exceptions. */
module Wrappers {

  /** A value that may be absent: Guava's Optional, or a Java reference that may be null. */
  datatype Option<+T> = None | Some(value: T) {

    /** The value, or the given default when absent. */
    function GetOr(default: T): T {
      match this
      case Some(v) => v
      case None => default
    }
  }

  /** Either a value or the error a Java method would have thrown. */
  datatype Result<+R, +E> = Success(value: R) | Failure(error: E)
}
